=== FILE: README.md ===
# Scheduling, paging and shell cores of the OS course assignments, in Dafny

This project models three independent C components from an operating-systems course
repository and proves properties about each of them.

1. **pa2.c: the tick-driven scheduling simulator.**
   - Model: a process table, a ready queue, a resource table (owner plus wait queue per
     resource) and the `current` slot. The intrusive lists become `seq<Pid>`.
   - Operations: the generic extremum search `find_process`, and the FCFS, priority, PCP
     and PIP acquire/release protocols. Also the FIFO, SJF, STCF, Round-Robin, Priority and
     Priority + aging policies, and the eight scheduler bundles that pair them.
   - Each operation is a pure transition function (`Processes`, `Arbitration`, `Policies`,
     `Bundles`). `ArbitrationInvariants` and `PolicyInvariants` prove the properties:
     - Well-formedness is kept. That is: every process is linked into at most one queue,
       waiters are BLOCKED, ready processes are not, and a running current process is
       linked nowhere.
     - A chosen process is unlinked.
     - A finished process is never chosen or re-enqueued.
     - Aging adds exactly one step.
2. **pa3.c: the paging simulator.**
   - Covered: the TLB (`Tlb`), frame map counts (`Frames`), two-level page tables with page
     allocation and release and the copy-on-write fault path (`Paging`), and process
     switching with copy-on-write fork (`Switch`).
3. **pa1.c: the shell's token processing (`Shell`).**
   - Covered: the alias table and its built-in, pipeline counting and splitting,
     single-pass alias expansion, and the dispatch of `run_command`.

C `assert`s and NULL dereferences that the code does not guard become preconditions.
Schedulers return the chosen process with the new state. Installing it as `current` is the
driver's step, written `PolicyInvariants.Installed`.

The header files are not part of this model. Where the code depends on their constants, the
model fixes them:
- `MAX_PRIO = 100` (`Arbitration.MAX_PRIO`).
- `ACCESS_READ = 1` and `ACCESS_WRITE = 2` as 32-bit masks.
- `PTES_PER_PAGE_SHIFT = 4`, so `NR_PTES_PER_PAGE = 16`.
- The TLB and frame-table sizes are the lengths of the sequences.

Four points of the code's behaviour that the model keeps:
- PCP and PIP release through `prio_init_release` (pa2.c:413-420). It wakes the
  highest-priority waiter, not the first enqueued.
- Aging has no cap: `prio_aging_except` adds one step per waiting process and tick.
- There is no priority-preemptive acquire protocol. The bundles only use `fcfs_acquire`,
  `pcp_acquire` and `pip_acquire`.
- Releasing a resource `current` does not own fails the `assert` of `fcfs_release` and
  `prio_release`. PCP and PIP first set the owner's priority (pa2.c:417). On a resource
  with no owner this dereferences NULL before any `assert`. On one owned by another
  process it restores that owner's priority, and the `assert` of `prio_release` then fails.

## Model

| member | source | states |
|---|---|---|
| Processes.Scan | pa2.c:60-72 | the loop of `find_process` keeps, from any prefix on, the first strict minimum / first strict maximum / last element whose key equals the head's |
| Processes.FindProcess | pa2.c:54-75 | None exactly on an empty queue; otherwise SMALLEST gives a position whose key is below no other and is strictly smaller than all earlier ones, LARGEST the mirror image, EQUAL the last position whose key equals the head's key; the queue is a value and is not changed |
| Arbitration.FcfsAcquire | pa2.c:88-112 | granted exactly when the resource is free, and then `current` owns it and nothing else changes; otherwise the owner stays, `current` becomes BLOCKED and is appended to the tail of the wait queue, and no other field of any process, the ready queue or another resource changes |
| Arbitration.FcfsRelease | pa2.c:123-159 | the owner is cleared and the other resources, `current` and all priorities are unchanged; with waiters, the first enqueued one is removed, made READY and appended to the ready-queue tail while the other waiters keep their order and no other process changes; without waiters the wait queue stays empty and the ready queue and processes are unchanged |
| Arbitration.PrioRelease | pa2.c:313-330 | the owner is cleared and the other resources and `current` are unchanged; with waiters, the one with the highest priority, the first enqueued among equals, is removed, made READY and appended to the ready queue, and no other process changes; without waiters the wait queue stays empty and nothing else changes |
| Arbitration.PrioInitRelease | pa2.c:413-420 | the owner's priority returns to its original value, and the waiter then woken is the highest-priority one as measured after that restore, the first enqueued among equals; it becomes READY at the ready-queue tail; `current`, the other resources and every other process (apart from the restored owner) are unchanged; without waiters only the owner's priority and the ownership change |
| Arbitration.PcpAcquire | pa2.c:426-436 | granted exactly when the resource is free; a free resource goes to `current`, which gets MAX_PRIO and nothing else changes; on a taken resource the owner gets MAX_PRIO and `current` becomes BLOCKED at the tail of the wait queue; the ready queue, `current`, the other resources and every other process are unchanged |
| Arbitration.PipAcquire | pa2.c:449-458 | granted exactly when the resource is free, and then `current` owns it and nothing else changes; on a taken resource an owner with strictly lower priority inherits the requester's priority and is never lowered, so its priority becomes the larger of the two, and `current` becomes BLOCKED at the tail of the wait queue; the ready queue, `current`, the other resources and every other process are unchanged |
| ArbitrationInvariants.FcfsAcquireKeepsValid | pa2.c:88-112 | an acquire by a running current process keeps the state well formed |
| ArbitrationInvariants.FcfsReleaseKeepsValid | pa2.c:123-159 | an FCFS release by the owner keeps the state well formed |
| ArbitrationInvariants.PrioReleaseKeepsValid | pa2.c:313-330 | a priority release by the owner keeps the state well formed |
| ArbitrationInvariants.PcpAcquireKeepsValid | pa2.c:426-436 | the ceiling acquire keeps the state well formed |
| ArbitrationInvariants.PipAcquireKeepsValid | pa2.c:449-458 | the inheritance acquire keeps the state well formed |
| ArbitrationInvariants.FcfsAcquireKeepsOwnersNotWaiting | pa2.c:88-112 | an acquire by a running process that does not own the resource never puts an owner into its own resource's wait queue |
| ArbitrationInvariants.SelfRequestWaitsOnItself | pa2.c:88-112 | the code does not check who requests: an owner requesting its own resource again is BLOCKED in that resource's own wait queue, waiting for itself |
| ArbitrationInvariants.FcfsReleaseKeepsOwnersNotWaiting | pa2.c:123-159 | a release keeps every owner out of its own resource's wait queue |
| Policies.FifoSchedule | pa2.c:166-209 | a current process that is not BLOCKED and has age below its lifespan keeps running and nothing changes; otherwise the ready-queue head is unlinked and chosen, or nothing runs on an empty queue |
| Policies.FifoPick | pa2.c:189-208 | the head of the ready queue is chosen and removed, the rest keeps its order; None on an empty queue |
| Policies.ShortestJob | pa2.c:228 | the chosen ready process has the smallest lifespan, and every earlier one a strictly larger lifespan |
| Policies.SjfSchedule | pa2.c:223-234 | a current process with ticks left is kept whatever its status; otherwise the shortest job is unlinked and chosen, or nothing runs |
| Policies.ShortestToComplete | pa2.c:254 | the chosen ready process has the fewest ticks left, and every earlier one strictly more |
| Policies.StcfSchedule | pa2.c:246-273 | with an empty ready queue the current process runs while it has ticks left; a missing or BLOCKED current is replaced by the candidate; a current with strictly more ticks left is preempted to the HEAD of the ready queue; on a tie a current with ticks left stays |
| Policies.RrSchedule | pa2.c:285-298 | the ready-queue head is chosen, and an uncompleted current goes to the tail; with an empty queue an uncompleted current continues, otherwise nothing runs |
| Policies.HighestPrio | pa2.c:342 | the chosen ready process has the highest priority, and every earlier one a strictly lower priority |
| Policies.PrioSchedule | pa2.c:332-372 | the highest-priority ready process preempts a current process of equal or lower priority, which goes to the tail only if it has ticks left; a missing or BLOCKED current is replaced; a higher-priority current with ticks left stays |
| Policies.AgeExcept | pa2.c:385-393 | every process gains one priority step per occurrence in the ready queue unless it is the excepted one; nothing else changes |
| Policies.AgeAfter | pa2.c:397-400 | the chosen process ends at its original priority while every other process gains one step per occurrence in the ready queue; queues, resources and every other field stay as they were |
| Policies.PaSchedule | pa2.c:395-404 | the same decision and ready queue as priority scheduling; when a process is chosen, it is reset to its original priority and the others age |
| PolicyInvariants.FifoKeepsValid | pa2.c:166-209 | installing the FIFO decision keeps the state well formed and the chosen process is not in the ready queue |
| PolicyInvariants.SjfKeepsValid | pa2.c:223-234 | installing the SJF decision keeps the state well formed and the chosen process is not in the ready queue |
| PolicyInvariants.StcfKeepsValid | pa2.c:246-273 | installing the STCF decision keeps the state well formed and the chosen process is not in the ready queue |
| PolicyInvariants.RrKeepsValid | pa2.c:285-298 | installing the Round-Robin decision keeps the state well formed and the chosen process is not in the ready queue |
| PolicyInvariants.PrioKeepsValid | pa2.c:332-372 | installing the priority decision keeps the state well formed and the chosen process is not in the ready queue |
| PolicyInvariants.PaKeepsValid | pa2.c:395-404 | installing the aging decision keeps the state well formed |
| PolicyInvariants.PaAgesByOne | pa2.c:385-404 | on a well-formed state, each process left in the ready queue gains exactly one step, the chosen one gets its original priority back, and every other priority is unchanged |
| PolicyInvariants.FifoNeverRunsFinished | pa2.c:180-208 | if the ready queue holds only unfinished processes, FIFO never chooses a finished process |
| PolicyInvariants.SjfNeverRunsFinished | pa2.c:225-233 | if the ready queue holds only unfinished processes, SJF never chooses a finished process |
| PolicyInvariants.StcfNeverRunsFinished | pa2.c:249-272 | with ages within lifespans, STCF neither chooses nor re-enqueues a finished process |
| PolicyInvariants.RrNeverRunsFinished | pa2.c:287-297 | Round-Robin neither chooses nor re-enqueues a finished process |
| PolicyInvariants.PrioNeverRunsFinished | pa2.c:335-371 | priority scheduling neither chooses nor re-enqueues a finished process |
| Bundles.Schedule | pa2.c:211-465 | whichever bundle runs, the chosen process is the current one or was in the ready queue, and resources are untouched |
| Bundles.Acquire | pa2.c:211-465 | every bundle grants exactly a free resource, to `current`, and otherwise blocks `current` at the tail of the wait queue; the ready queue, `current`, the other resources and every process other than the requester and the owner are unchanged; when the requester blocks, the FCFS bundles change only its status to BLOCKED, PCP also raises the owner to MAX_PRIO, and PIP raises the owner to the larger of the two priorities |
| Bundles.Release | pa2.c:211-465 | every bundle frees the resource and keeps `current` and the other resources; without waiters the wait queue stays empty; FIFO, SJF, STCF and RR make the first waiter READY at the ready-queue tail and change no other process; Priority, aging, PCP and PIP wake the highest-priority waiter in the same way, measured after PCP and PIP restore the owner's original priority |
| Bundles.ScheduleKeepsValid | pa2.c:211-465 | every bundle's decision, once installed, keeps the state well formed and leaves the chosen process unlinked |
| Bundles.ScheduleNeverRunsFinished | pa2.c:211-465 | no bundle chooses or re-enqueues a finished process |
| Bundles.AcquireKeepsValid | pa2.c:211-465 | every bundle's acquire keeps the state well formed |
| Bundles.ReleaseKeepsValid | pa2.c:211-465 | every bundle's release by the owner keeps the state well formed |
| Bundles.AcquireKeepsOwnersNotWaiting | pa2.c:211-465 | whichever bundle, an acquire by a running process that does not own the resource keeps every owner out of its own resource's wait queue |
| Bundles.ReleaseKeepsOwnersNotWaiting | pa2.c:211-465 | whichever bundle, a release keeps every owner out of its own resource's wait queue |
| Tlb.FindTlbe | pa3.c:61-70 | returns the first valid entry whose vpn matches, or None exactly when no valid entry matches |
| Tlb.FlushTlb | pa3.c:78-83 | every entry becomes invalid and keeps its other fields |
| Tlb.LookupTlb | pa3.c:100-110 | a hit returns the pfn of a matching valid entry whose access bits include all requested ones; with unique vpns this happens exactly when such an entry exists |
| Tlb.InsertTlb | pa3.c:123-139 | the first entry already holding the vpn is updated in place, or else, when none holds it, the first invalid slot is filled; the slot ends up valid with the given vpn, rw and pfn, and every other slot is unchanged |
| Tlb.InsertKeepsUnique | pa3.c:123-139 | inserting never creates a second valid entry for a vpn |
| Tlb.InsertThenLookup | pa3.c:100-139 | after inserting a translation, a lookup asking for a subset of its access bits returns its pfn |
| Tlb.InsertKeepsOthers | pa3.c:123-139 | inserting one vpn leaves the lookup of every other vpn unchanged |
| Tlb.FlushForgetsAll | pa3.c:78-83 | after a flush no lookup hits and vpns are trivially unique |
| Frames.AllocPf | pa3.c:178-187 | returns the smallest frame with count 0 and sets its count to 1 without changing any other count; returns -1 exactly when no frame is free, with the counts unchanged |
| Frames.FreePfAsWritten | pa3.c:189-196 | as written, success is always reported; a mapped frame loses one mapping and a frame with none wraps to 0xFFFFFFFF, and no other count changes |
| Frames.FreeUnmappedFrameSucceeds | pa3.c:191 | as written, freeing a frame whose count is 0 reports success and leaves the count 0xFFFFFFFF |
| Frames.FreePf | pa3.c:189-196 | succeeds exactly on a mapped frame and drops one of its mappings; an unmapped frame is refused with the counts unchanged |
| Frames.FreePfAgreesWhenMapped | pa3.c:189-196 | on a mapped frame the corrected and as-written versions agree |
| Frames.AllocThenFree | pa3.c:178-196 | freeing the frame just allocated restores the counts |
| Frames.FreeAfterFreeRefused | pa3.c:189-196 | a second free of a freshly allocated frame is refused |
| Paging.PdIndex | pa3.c:147-151 | the directory index is the block of NR_PTES_PER_PAGE vpns containing the vpn, and is in range for mapped vpns |
| Paging.GetPt | pa3.c:147-151 | the slot returned is the outer entry of the block of NR_PTES_PER_PAGE vpns containing the vpn, so it is NULL exactly when that second-level page is absent; a present page has NR_PTES_PER_PAGE entries |
| Paging.PteIndex | pa3.c:159-165 | the entry index is below NR_PTES_PER_PAGE and together with the directory index rebuilds the vpn |
| Paging.SplitIsInjective | pa3.c:147-165 | distinct vpns never share both indices |
| Paging.GetPte | pa3.c:159-165 | NULL exactly for a missing directory, otherwise the entry at `vpn % NR_PTES_PER_PAGE` |
| Paging.AllocPage | pa3.c:214-232 | the vpn maps, valid, to the smallest free frame, with `rw` and `private` both set to the requested access; only that frame's count changes, to 1; other existing PTEs and the TLB are unchanged, and a newly created directory holds only invalid entries |
| Paging.FreePage | pa3.c:243-264 | with the corrected `free_pf` and its `assert`, the PTE loses its valid bit and keeps rw and pfn; its mapped frame loses one mapping; the TLB entry `find_tlbe` returns for the vpn is invalidated and no other entry changes, so with unique vpns no TLB entry for it remains; other PTEs are unchanged |
| Paging.FreePageAsWritten | pa3.c:243-264 | with `free_pf` as written the `assert` never fails: on a mapped frame the result is that of the corrected version, and a frame with no mapping left wraps to 0xFFFFFFFF with every other count unchanged; in both cases only the vpn's PTE and the TLB entry `find_tlbe` returns are invalidated |
| Paging.SecondFreeWraps | pa3.c:191 | after freeing the only mapping of a page, a second `free_page` of the same vpn passes as written and leaves the frame count at 0xFFFFFFFF, while the corrected version refuses it |
| Paging.AllocThenFreePage | pa3.c:214-264 | freeing a page right after allocating it restores the map counts and leaves an invalid PTE |
| Paging.ToUnsigned | pa3.c:299 | conversion of the int result of `alloc_pf` to an unsigned PTE field: values in range are kept and -1 becomes 0xFFFFFFFF |
| Paging.HandlePageFault | pa3.c:282-308 | handled exactly for a write to a PTE with rw READ and private READ+WRITE; for a shared frame one mapping is dropped and the PTE moves, valid, to a newly allocated frame different from the old one; every handled case restores rw from private; an unhandled fault changes nothing and the TLB is never touched |
| Switch.FindProcess | pa3.c:347-359 | returns the first listed process with the pid, or None exactly when no listed process has it |
| Switch.BumpDir | pa3.c:399-404 | each frame's count rises by the number of valid entries of the directory that map it |
| Switch.BumpTable | pa3.c:395-405 | each frame's count rises by the number of valid entries of the whole table that map it |
| Switch.ShareTable | pa3.c:395-407 | the same directories are present; every valid entry becomes read-only and invalid entries are unchanged |
| Switch.SwitchProcess | pa3.c:379-414 | the TLB is flushed and the target becomes current; a listed pid is unlinked and the old current is appended; otherwise the current is forked: each valid PTE becomes read-only, each frame gains one mapping per valid PTE, and the child with the pid gets identical PTE values; only the fork needs every valid PTE to map an existing frame |
| Switch.ForkSharesWritablePages | pa3.c:388-407 | after a fork, a mapped page whose original access allows writes is identical in parent and child, its frame has at least two mappings, and a write through either triggers copy-on-write |
| Switch.RotateKeepsElements | pa3.c:385-409 | taking the found process out of the list and putting it behind the appended current one keeps every element, and keeps distinct elements distinct |
| Switch.ResumeKeepsPids | pa3.c:382-413 | switching to a listed pid keeps the multiset of pids, and distinct pids stay distinct |
| Switch.ForkAddsPid | pa3.c:382-407 | forking adds exactly the new pid; distinct pids stay distinct unless the requested pid is the running one, which is not listed and so is forked again |
| Shell.FindAlias | pa1.c:57-64 | returns the first alias with the name, or None exactly when no alias has it |
| Shell.AliasAdd | pa1.c:66-83 | always returns 1; afterwards the name stands for the new tokens and every other name keeps its meaning; a new name is appended after the existing aliases, and a known name has its entry replaced in place, so the listing order is kept |
| Shell.AliasAddKeepsWellFormed | pa1.c:66-83 | names stay unique and every alias keeps at least one token |
| Shell.AliasPrint | pa1.c:93-106 | listing all returns 0 on an empty table and 1 otherwise, printing the table in order; a named listing returns -1 for an unknown name and otherwise 1, printing that alias |
| Shell.AddThenPrint | pa1.c:66-106 | after defining an alias, listing that name prints exactly the new definition with code 1, and the full listing is the old one with the new alias appended (new name) or has the same length and holds the new definition (known name) |
| Shell.CountPipelines | pa1.c:138-144 | returns the number of pipe-symbol tokens in the line |
| Shell.ParseCommands | pa1.c:156-184 | builds one stage per pipe token plus one unless the last token is a pipe; for a line that neither starts nor ends with a pipe there are count + 1 stages, no stage holds a pipe, and joining them with pipe tokens between gives the line back |
| Shell.JoinIsUnique | pa1.c:166-181 | two lists of pipe-free stages that join to the same line are equal, so the stages of a line are determined by the line |
| Shell.ExpandWithoutAliases | pa1.c:287-298 | a line naming no alias is left unchanged |
| Shell.ExpandOneAlias | pa1.c:287-298 | a single alias on an otherwise alias-free line is replaced by its tokens once, and the line grows by the alias's token count minus one |
| Shell.ExpandAliases | pa1.c:287-298 | the in-place replace-and-skip loop yields the single-pass flat-map expansion, in which inserted tokens are never expanded again |
| Shell.RunCommand | pa1.c:271-300 | an empty line returns 1; `exit` returns 0; `cd` with 0 or 1 argument changes directory (to home when there is none) and with more arguments returns -1; `alias` alone prints the whole table and returns 1, or 0 when the table is empty; `alias name` returns -1 and prints nothing for an unknown name, and otherwise prints that alias and returns 1; `alias` with more tokens defines one and returns 1, appending it to the table for a new name or replacing the existing entry in place; any other line is expanded and executed |
| Shell.DefinedAliasExpands | pa1.c:279-298 | after `alias name tokens…`, a line starting with the name executes the alias's tokens literally, followed by the expansion of the rest |

## Left out

- The simulation driver is not modelled. This covers the tick counter, ageing of the running process, process creation and exit, dumping status, and the `list_head` primitives. Queues are value sequences.
- Priority values are unbounded integers. The C `int` priorities never come near overflow, because the only growth is one step per tick of waiting.
- Policies.StcfSchedule, Policies.PrioSchedule: these require a current process when the ready queue is empty, because the code dereferences it there. STCF does not check for BLOCKED in that case, and the model keeps that behaviour.
- Policies.SjfSchedule: this keeps a current process with ticks left even when it is BLOCKED, as the code does.
- Arbitration.PrioInitRelease: this requires an owner, because the code dereferences the owner before `prio_release` asserts anything.
- At most one process is RUNNING: this invariant is not stated. Only the driver, which is not modelled, sets RUNNING, and no modelled operation does.
- The invariant that no owner waits on its own resource is kept only for requests by a non-owner. The code does not guard against an owner requesting its own resource again, which blocks it on itself for good (`ArbitrationInvariants.SelfRequestWaitsOnItself`).
- Tlb.InsertTlb: this requires an entry for the vpn or a free slot. The code dereferences NULL otherwise, and relies on the TLB being large enough.
- Paging.HandlePageFault: this covers vpns whose second-level page exists. For a missing page, the code calls `alloc_page` and then dereferences the `pte` it read as NULL before the call. An invalid PTE in an existing page is never allocated, because the NULL test cannot succeed for it.
- Paging.FreePage: this requires the frame to be mapped, which is the `assert` of `free_page` over the corrected `free_pf` (see Findings). As written, a second `free_page` of the same vpn passes that `assert` and wraps the count. `Paging.FreePageAsWritten` models this.
- Paging.FreePage: this clears only the valid bit, as the code does. The doc comment asks for rw and pfn to be cleared as well.
- Paging.FreePage: the `free(*pt)` of an all-invalid second-level page is not modelled. It leaves a dangling pointer in the outer table, and the model keeps the page in place.
- Paging.AllocPage: a new second-level page starts with all entries invalid. `malloc` leaves it uninitialised.
- The fork mapcount increments: map counts are unbounded. The 32-bit counters are assumed not to wrap.
- Switch.SwitchProcess: when it forks (the pid is not listed), every valid entry of the running process must map an existing frame. `mapcounts[pfn]++` at pa3.c:402 would otherwise index past the array, which C does not check. A failed copy-on-write allocation leaves such an entry, with pfn 0xFFFFFFFF. Resuming a listed pid never reads the counts and has no such requirement.
- Not modelled: `malloc`, `free` and `memcpy` of page tables, and the raw copying of `clone_pagetable`. The child's table is a value copy.
- Not modelled: `builtin_cd`, `execute`, `exec_command`, pipes, `fork`, `exec`, `wait`, and the text written by `print_alias`. These are operating-system I/O. `cd` appears only as the `ChangeDir` outcome, and listings appear as the aliases printed.
- Not modelled: the NULL terminator of each command's token array, the token buffer's capacity during alias expansion, and `strdup`/`realloc` memory management.
- Shell.ExpandAliases: this requires every alias to stand for at least one token. This holds for every alias the `alias` built-in can create.
- Shell.RunCommand: this returns the expanded line for execution instead of the code of `execute`.
- Shell.ParseCommands: this requires a non-empty line, which `run_command` guarantees. For a line that starts or ends with `|`, only the number of stages built is stated. For a line ending in `|`, that is one fewer than the slots the code allocates.

## Findings

| source | as written | input that shows it | evidently intended | confidence | as-written member | corrected member |
|---|---|---|---|---|---|---|
| pa3.c:191 | `free_pf` tests `--mapcounts[pfn] < 0` on an unsigned counter, so the test never fails and the count wraps | a frame with count 0: the count becomes 0xFFFFFFFF and success is reported | refuse to free an unmapped frame (report false, count unchanged), so the `assert` in `free_page` catches a double free | high, not executed | Frames.FreePfAsWritten, Frames.FreeUnmappedFrameSucceeds, Paging.FreePageAsWritten, Paging.SecondFreeWraps | Frames.FreePf, Frames.FreeAfterFreeRefused, Paging.FreePage |

=== FILE: arbitration.dfy ===
/**
 * Resource arbitration of the scheduling simulator: the default FCFS
 * acquire/release pair, the priority-ordered release, and the acquire
 * variants of the Priority Ceiling and Priority Inheritance protocols.
 * C `assert`s and pointer dereferences become preconditions.
 */
module Arbitration {
  import opened Optional
  import opened Queues
  import opened Processes

  /** Outcome of an acquire call: the new state and whether the resource was granted. */
  datatype Acquired = Acquired(state: State, granted: bool)

  /** Priority given to a process by the ceiling protocol. */
  const MAX_PRIO: int := 100

  /** `s` with the status of process `p` replaced. */
  function SetStatus(s: State, p: Pid, st: Status): State
    requires p in s.procs
  {
    s.(procs := s.procs[p := s.procs[p].(status := st)])
  }

  /** `s` with the priority of process `p` replaced. */
  function SetPrio(s: State, p: Pid, prio: int): State
    requires p in s.procs
  {
    s.(procs := s.procs[p := s.procs[p].(prio := prio)])
  }

  /**
   * Default acquisition: a free resource goes to `current`; a taken one
   * blocks `current` and appends it to the tail of the resource's wait queue.
   */
  function FcfsAcquire(s: State, rid: nat): (r: Acquired)
    requires rid < |s.resources|
    requires s.resources[rid].owner.Some? ==> s.current.Some? && s.current.value in s.procs
    ensures r.granted <==> s.resources[rid].owner.None?
    ensures |r.state.resources| == |s.resources|
    ensures r.state.procs.Keys == s.procs.Keys
    ensures r.state.ready == s.ready && r.state.current == s.current
    ensures forall k :: 0 <= k < |s.resources| && k != rid ==> r.state.resources[k] == s.resources[k]
    ensures r.granted ==>
      && r.state.resources[rid] == Resource(s.current, s.resources[rid].waitqueue)
      && r.state.procs == s.procs
    ensures !r.granted ==>
      && r.state.resources[rid].owner == s.resources[rid].owner
      && r.state.resources[rid].waitqueue == s.resources[rid].waitqueue + [s.current.value]
      && r.state.procs == s.procs[s.current.value := s.procs[s.current.value].(status := Blocked)]
  {
    var res := s.resources[rid];
    if res.owner.None? then
      Acquired(s.(resources := s.resources[rid := res.(owner := s.current)]), true)
    else
      var cur := s.current.value;
      var s1 := SetStatus(s, cur, Blocked);
      Acquired(s1.(resources := s.resources[rid := res.(waitqueue := res.waitqueue + [cur])]), false)
  }

  /** Unlinks the waiter at position `i` of resource `rid`, makes it READY and appends it to the ready queue. */
  function Wake(s: State, rid: nat, i: nat): (r: State)
    requires rid < |s.resources|
    requires i < |s.resources[rid].waitqueue|
    requires s.resources[rid].waitqueue[i] in s.procs
    ensures |r.resources| == |s.resources| && r.current == s.current
    ensures r.resources[rid].owner == s.resources[rid].owner
    ensures r.resources[rid].waitqueue == RemoveAt(s.resources[rid].waitqueue, i)
    ensures forall k :: 0 <= k < |s.resources| && k != rid ==> r.resources[k] == s.resources[k]
    ensures r.ready == s.ready + [s.resources[rid].waitqueue[i]]
    ensures var w := s.resources[rid].waitqueue[i];
      r.procs == s.procs[w := s.procs[w].(status := Ready)]
  {
    var res := s.resources[rid];
    var w := res.waitqueue[i];
    var s1 := SetStatus(s, w, Ready);
    s1.(resources := s.resources[rid := res.(waitqueue := RemoveAt(res.waitqueue, i))],
        ready := s.ready + [w])
  }

  /**
   * Default release: `current` must own the resource; ownership is dropped and
   * the waiter that came first (if any) is woken and appended to the ready queue.
   */
  function FcfsRelease(s: State, rid: nat): (r: State)
    requires rid < |s.resources|
    requires s.resources[rid].owner == s.current
    requires s.resources[rid].waitqueue != [] ==>
      s.resources[rid].waitqueue[0] in s.procs && s.procs[s.resources[rid].waitqueue[0]].status == Blocked
    ensures |r.resources| == |s.resources| && r.current == s.current
    ensures r.procs.Keys == s.procs.Keys
    ensures forall p :: p in s.procs ==> r.procs[p].prio == s.procs[p].prio
    ensures r.resources[rid].owner.None?
    ensures forall k :: 0 <= k < |s.resources| && k != rid ==> r.resources[k] == s.resources[k]
    ensures s.resources[rid].waitqueue == [] ==>
      r.ready == s.ready && r.procs == s.procs && r.resources[rid].waitqueue == []
    ensures s.resources[rid].waitqueue != [] ==>
      var w := s.resources[rid].waitqueue[0];
      && r.ready == s.ready + [w]
      && r.resources[rid].waitqueue == s.resources[rid].waitqueue[1..]
      && r.procs == s.procs[w := s.procs[w].(status := Ready)]
  {
    var res := s.resources[rid];
    var s1 := s.(resources := s.resources[rid := res.(owner := None)]);
    if res.waitqueue == [] then s1 else Wake(s1, rid, 0)
  }

  /** Position of the waiter `prio_release` wakes: the highest priority, first enqueued on ties. */
  function PrioWaiter(s: State, rid: nat): Option<nat>
    requires rid < |s.resources|
    requires InTable(s.procs, s.resources[rid].waitqueue)
  {
    FindProcess(s.procs, s.resources[rid].waitqueue, LARGEST, Prio)
  }

  /**
   * `r` results from `s` by waking, out of the wait queue of resource `rid`,
   * the waiter with the highest priority in `s`, the first enqueued among
   * equals: it leaves the wait queue, becomes READY and joins the tail of
   * the ready queue, and no other process changes.
   */
  ghost predicate WokeHighest(s: State, rid: nat, r: State)
  {
    && rid < |s.resources| && rid < |r.resources|
    && InTable(s.procs, s.resources[rid].waitqueue)
    && var wq := s.resources[rid].waitqueue;
       exists i :: 0 <= i < |wq|
         && (forall j :: 0 <= j < |wq| ==> s.procs[wq[j]].prio <= s.procs[wq[i]].prio)
         && (forall j :: 0 <= j < i ==> s.procs[wq[j]].prio < s.procs[wq[i]].prio)
         && r.ready == s.ready + [wq[i]]
         && r.resources[rid].waitqueue == RemoveAt(wq, i)
         && r.procs == s.procs[wq[i] := s.procs[wq[i]].(status := Ready)]
  }

  /** What the assertions of `prio_release` demand: the owner releases, and the chosen waiter is BLOCKED. */
  predicate PrioReleasable(s: State, rid: nat)
  {
    && rid < |s.resources|
    && s.resources[rid].owner == s.current
    && InTable(s.procs, s.resources[rid].waitqueue)
    && (s.resources[rid].waitqueue != [] ==>
          var i := PrioWaiter(s, rid).value;
          s.procs[s.resources[rid].waitqueue[i]].status == Blocked)
  }

  /**
   * Priority release: like the FCFS release, but the woken waiter is the one
   * with the highest priority, the first enqueued among equals.
   */
  function PrioRelease(s: State, rid: nat): (r: State)
    requires PrioReleasable(s, rid)
    ensures |r.resources| == |s.resources| && r.current == s.current
    ensures r.procs.Keys == s.procs.Keys
    ensures forall p :: p in s.procs ==> r.procs[p].prio == s.procs[p].prio
    ensures r.resources[rid].owner.None?
    ensures forall k :: 0 <= k < |s.resources| && k != rid ==> r.resources[k] == s.resources[k]
    ensures s.resources[rid].waitqueue == [] ==>
      r.ready == s.ready && r.procs == s.procs && r.resources[rid].waitqueue == []
    ensures s.resources[rid].waitqueue != [] ==> WokeHighest(s, rid, r)
  {
    var res := s.resources[rid];
    var s1 := s.(resources := s.resources[rid := res.(owner := None)]);
    if res.waitqueue == [] then s1
    else
      var i := PrioWaiter(s, rid).value;
      var wq := res.waitqueue;
      assert forall j :: 0 <= j < |wq| ==> KeyAt(s.procs, wq, Prio, j) == s.procs[wq[j]].prio;
      assert forall j :: 0 <= j < |wq| ==> s.procs[wq[j]].prio <= s.procs[wq[i]].prio;
      assert forall j :: 0 <= j < i ==> s.procs[wq[j]].prio < s.procs[wq[i]].prio;
      var r := Wake(s1, rid, i);
      assert r.procs == s.procs[wq[i] := s.procs[wq[i]].(status := Ready)];
      r
  }

  /** The state after `prio_init_release` restored the owner's original priority. */
  function RestoreOwner(s: State, rid: nat): (r: State)
    requires rid < |s.resources|
    requires s.resources[rid].owner.Some? && s.resources[rid].owner.value in s.procs
    ensures r.ready == s.ready && r.resources == s.resources && r.current == s.current
    ensures r.procs.Keys == s.procs.Keys
    ensures var o := s.resources[rid].owner.value;
      && r.procs[o].prio == s.procs[o].prioOrig
      && r.procs[o].(prio := s.procs[o].prio) == s.procs[o]
      && (forall p :: p in s.procs && p != o ==> r.procs[p] == s.procs[p])
  {
    var o := s.resources[rid].owner.value;
    SetPrio(s, o, s.procs[o].prioOrig)
  }

  /**
   * Release of the PCP and PIP bundles: the owner's priority falls back to
   * its original value, then the highest-priority waiter is woken.
   */
  function PrioInitRelease(s: State, rid: nat): (r: State)
    requires rid < |s.resources|
    requires s.resources[rid].owner.Some? && s.resources[rid].owner.value in s.procs
    requires PrioReleasable(RestoreOwner(s, rid), rid)
    ensures |r.resources| == |s.resources| && r.current == s.current
    ensures r.procs.Keys == s.procs.Keys
    ensures r.resources[rid].owner.None?
    ensures forall k :: 0 <= k < |s.resources| && k != rid ==> r.resources[k] == s.resources[k]
    ensures s.resources[rid].waitqueue == [] ==>
      r.ready == s.ready && r.procs == RestoreOwner(s, rid).procs && r.resources[rid].waitqueue == []
    ensures s.resources[rid].waitqueue != [] ==> WokeHighest(RestoreOwner(s, rid), rid, r)
    ensures var o := s.resources[rid].owner.value;
      o in r.procs && r.procs[o].prio == s.procs[o].prioOrig && r.procs[o].prioOrig == s.procs[o].prioOrig
  {
    PrioRelease(RestoreOwner(s, rid), rid)
  }

  /**
   * Priority Ceiling acquire: the requester (free resource) or the owner
   * (taken resource) is raised to MAX_PRIO, then FCFS acquisition follows.
   */
  function PcpAcquire(s: State, rid: nat): (r: Acquired)
    requires rid < |s.resources|
    requires s.current.Some? && s.current.value in s.procs
    requires s.resources[rid].owner.Some? ==> s.resources[rid].owner.value in s.procs
    ensures r.granted <==> s.resources[rid].owner.None?
    ensures |r.state.resources| == |s.resources|
    ensures r.state.procs.Keys == s.procs.Keys
    ensures r.state.ready == s.ready && r.state.current == s.current
    ensures forall k :: 0 <= k < |s.resources| && k != rid ==> r.state.resources[k] == s.resources[k]
    ensures r.granted ==>
      var c := s.current.value;
      && r.state.resources[rid] == Resource(s.current, s.resources[rid].waitqueue)
      && r.state.procs == s.procs[c := s.procs[c].(prio := MAX_PRIO)]
    ensures !r.granted ==>
      var o := s.resources[rid].owner.value;
      var c := s.current.value;
      && r.state.resources[rid] == Resource(s.resources[rid].owner, s.resources[rid].waitqueue + [c])
      && (o != c ==> r.state.procs[o] == s.procs[o].(prio := MAX_PRIO))
      && (o != c ==> r.state.procs[c] == s.procs[c].(status := Blocked))
      && (o == c ==> r.state.procs[c] == s.procs[c].(prio := MAX_PRIO, status := Blocked))
      && (forall p :: p in s.procs && p != o && p != c ==> r.state.procs[p] == s.procs[p])
  {
    var res := s.resources[rid];
    var s1 := if res.owner.None? then SetPrio(s, s.current.value, MAX_PRIO)
              else SetPrio(s, res.owner.value, MAX_PRIO);
    FcfsAcquire(s1, rid)
  }

  /**
   * Priority Inheritance acquire: an owner whose priority is strictly lower
   * than the requester's inherits the requester's priority; then FCFS
   * acquisition follows. The owner's priority is never lowered.
   */
  function PipAcquire(s: State, rid: nat): (r: Acquired)
    requires rid < |s.resources|
    requires s.resources[rid].owner.Some? ==>
      s.resources[rid].owner.value in s.procs && s.current.Some? && s.current.value in s.procs
    ensures r.granted <==> s.resources[rid].owner.None?
    ensures |r.state.resources| == |s.resources|
    ensures r.state.procs.Keys == s.procs.Keys
    ensures r.state.ready == s.ready && r.state.current == s.current
    ensures forall k :: 0 <= k < |s.resources| && k != rid ==> r.state.resources[k] == s.resources[k]
    ensures r.granted ==>
      && r.state.resources[rid] == Resource(s.current, s.resources[rid].waitqueue)
      && r.state.procs == s.procs
    ensures !r.granted ==>
      var o := s.resources[rid].owner.value;
      var c := s.current.value;
      && r.state.resources[rid] == Resource(s.resources[rid].owner, s.resources[rid].waitqueue + [c])
      && r.state.procs[o].prio >= s.procs[o].prio
      && r.state.procs[o].prio >= s.procs[c].prio
      && (r.state.procs[o].prio == s.procs[o].prio || r.state.procs[o].prio == s.procs[c].prio)
      && (o != c ==> r.state.procs[o] == s.procs[o].(prio := r.state.procs[o].prio))
      && r.state.procs[c] == s.procs[c].(status := Blocked, prio := r.state.procs[c].prio)
      && (o != c ==> r.state.procs[c].prio == s.procs[c].prio)
      && (forall p :: p in s.procs && p != o && p != c ==> r.state.procs[p] == s.procs[p])
  {
    var res := s.resources[rid];
    var s1 := if res.owner.Some? && s.procs[res.owner.value].prio < s.procs[s.current.value].prio
              then SetPrio(s, res.owner.value, s.procs[s.current.value].prio)
              else s;
    FcfsAcquire(s1, rid)
  }
}

=== FILE: arbitration_invariants.dfy ===
/**
 * Every arbitration operation keeps the simulator state well formed: each
 * process stays linked into at most one queue, waiters stay BLOCKED, and a
 * running current process stays unlinked.
 */
module ArbitrationInvariants {
  import opened Optional
  import opened Queues
  import opened Processes
  import opened Arbitration

  /** Two states with the same queues link the same processes. */
  lemma SameQueuesSameLinks(s: State, t: State)
    requires s.ready == t.ready && |s.resources| == |t.resources|
    requires forall r :: 0 <= r < |s.resources| ==> s.resources[r].waitqueue == t.resources[r].waitqueue
    ensures forall q :: Linked(s, q) <==> Linked(t, q)
  {
    forall q ensures Waiting(s, q) <==> Waiting(t, q) {
      if Waiting(s, q) {
        var r :| 0 <= r < |s.resources| && q in s.resources[r].waitqueue;
        assert q in t.resources[r].waitqueue;
      }
      if Waiting(t, q) {
        var r :| 0 <= r < |t.resources| && q in t.resources[r].waitqueue;
        assert q in s.resources[r].waitqueue;
      }
    }
  }

  /** Changing a priority never affects well-formedness. */
  lemma SetPrioKeepsValid(s: State, p: Pid, prio: int)
    requires Valid(s) && p in s.procs
    ensures Valid(SetPrio(s, p, prio))
  {
    var s' := SetPrio(s, p, prio);
    assert forall q :: Linked(s', q) <==> Linked(s, q) by {
      forall q ensures Linked(s', q) <==> Linked(s, q) {
        assert Waiting(s', q) <==> Waiting(s, q);
      }
    }
  }

  /** Waking a waiter other than the current process keeps the state well formed. */
  lemma WakeKeepsValid(s: State, rid: nat, i: nat)
    requires Valid(s)
    requires rid < |s.resources| && i < |s.resources[rid].waitqueue|
    requires s.current != Some(s.resources[rid].waitqueue[i])
    ensures Valid(Wake(s, rid, i))
  {
    var wq := s.resources[rid].waitqueue;
    var w := wq[i];
    var s' := Wake(s, rid, i);
    RemoveAtMembers(wq, i);
    assert w !in s.ready;
    AppendDistinct(s.ready, w);
    forall r | 0 <= r < |s.resources|
      ensures Distinct(s'.resources[r].waitqueue)
      ensures forall p :: p in s'.resources[r].waitqueue ==> p in s.resources[r].waitqueue && p != w
    {
      if r != rid {
        forall p | p in s'.resources[r].waitqueue ensures p != w {
          assert w in s.resources[rid].waitqueue;
        }
      }
    }
    forall r, p | 0 <= r < |s.resources| && p in s'.resources[r].waitqueue
      ensures p !in s'.ready
    {
    }
    if s'.current.Some? && s'.procs[s'.current.value].status != Blocked {
      var c := s'.current.value;
      assert c != w;
      assert !Linked(s, c);
      assert !Waiting(s', c);
    }
  }

  /** FCFS acquisition by a running current process keeps the state well formed. */
  lemma FcfsAcquireKeepsValid(s: State, rid: nat)
    requires Valid(s)
    requires rid < |s.resources|
    requires s.current.Some? && s.procs[s.current.value].status != Blocked
    ensures Valid(FcfsAcquire(s, rid).state)
  {
    var s' := FcfsAcquire(s, rid).state;
    if s.resources[rid].owner.Some? {
      var c := s.current.value;
      assert !Linked(s, c);
      var wq := s.resources[rid].waitqueue;
      assert c !in wq;
      AppendDistinct(wq, c);
      forall r | 0 <= r < |s.resources| && r != rid ensures c !in s.resources[r].waitqueue {
        assert !Waiting(s, c);
      }
      forall r, p | 0 <= r < |s.resources| && p in s'.resources[r].waitqueue
        ensures s'.procs[p].status == Blocked
      {
      }
    } else {
      assert forall q :: Linked(s', q) <==> Linked(s, q) by {
        forall q ensures Linked(s', q) <==> Linked(s, q) {
          assert Waiting(s', q) <==> Waiting(s, q);
        }
      }
    }
  }

  /** FCFS release by the running owner keeps the state well formed. */
  lemma FcfsReleaseKeepsValid(s: State, rid: nat)
    requires Valid(s)
    requires rid < |s.resources|
    requires s.current.Some? && s.procs[s.current.value].status != Blocked
    requires s.resources[rid].owner == s.current
    ensures s.resources[rid].waitqueue != [] ==> s.procs[s.resources[rid].waitqueue[0]].status == Blocked
    ensures Valid(FcfsRelease(s, rid))
  {
    var res := s.resources[rid];
    var s1 := s.(resources := s.resources[rid := res.(owner := None)]);
    SameQueuesSameLinks(s, s1);
    assert Valid(s1);
    if res.waitqueue != [] {
      WakeKeepsValid(s1, rid, 0);
    }
  }

  /** Priority release by the running owner keeps the state well formed. */
  lemma PrioReleaseKeepsValid(s: State, rid: nat)
    requires Valid(s)
    requires rid < |s.resources|
    requires s.current.Some? && s.procs[s.current.value].status != Blocked
    requires s.resources[rid].owner == s.current
    ensures PrioReleasable(s, rid)
    ensures Valid(PrioRelease(s, rid))
  {
    var res := s.resources[rid];
    var s1 := s.(resources := s.resources[rid := res.(owner := None)]);
    SameQueuesSameLinks(s, s1);
    assert Valid(s1);
    if res.waitqueue != [] {
      var i := PrioWaiter(s, rid).value;
      WakeKeepsValid(s1, rid, i);
    }
  }

  /** Priority Ceiling acquisition by a running current process keeps the state well formed. */
  lemma PcpAcquireKeepsValid(s: State, rid: nat)
    requires Valid(s)
    requires rid < |s.resources|
    requires s.current.Some? && s.procs[s.current.value].status != Blocked
    ensures Valid(PcpAcquire(s, rid).state)
  {
    var res := s.resources[rid];
    var p := if res.owner.None? then s.current.value else res.owner.value;
    SetPrioKeepsValid(s, p, MAX_PRIO);
    FcfsAcquireKeepsValid(SetPrio(s, p, MAX_PRIO), rid);
  }

  /** Priority Inheritance acquisition by a running current process keeps the state well formed. */
  lemma PipAcquireKeepsValid(s: State, rid: nat)
    requires Valid(s)
    requires rid < |s.resources|
    requires s.current.Some? && s.procs[s.current.value].status != Blocked
    ensures Valid(PipAcquire(s, rid).state)
  {
    var res := s.resources[rid];
    if res.owner.Some? && s.procs[res.owner.value].prio < s.procs[s.current.value].prio {
      SetPrioKeepsValid(s, res.owner.value, s.procs[s.current.value].prio);
      FcfsAcquireKeepsValid(SetPrio(s, res.owner.value, s.procs[s.current.value].prio), rid);
    } else {
      FcfsAcquireKeepsValid(s, rid);
    }
  }

  /** No owner of a resource waits in that resource's own queue, where it would wait for itself. */
  ghost predicate OwnersNotWaiting(s: State)
  {
    forall k :: 0 <= k < |s.resources| && s.resources[k].owner.Some? ==>
      s.resources[k].owner.value !in s.resources[k].waitqueue
  }

  /** FCFS acquisition by a running process that does not own the resource keeps owners out of their own queues. */
  lemma FcfsAcquireKeepsOwnersNotWaiting(s: State, rid: nat)
    requires Valid(s) && OwnersNotWaiting(s)
    requires rid < |s.resources|
    requires s.current.Some? && s.procs[s.current.value].status != Blocked
    requires s.resources[rid].owner != s.current
    ensures OwnersNotWaiting(FcfsAcquire(s, rid).state)
  {
    var c := s.current.value;
    assert !Waiting(s, c);
    assert c !in s.resources[rid].waitqueue;
  }

  /**
   * The C acquire does not check who asks: an owner requesting its own
   * resource again is appended to that resource's queue and BLOCKED, waiting
   * for itself.
   */
  lemma SelfRequestWaitsOnItself(s: State, rid: nat)
    requires rid < |s.resources|
    requires s.current.Some? && s.current.value in s.procs
    requires s.resources[rid].owner == s.current
    ensures var r := FcfsAcquire(s, rid);
      && !r.granted
      && r.state.resources[rid].owner == s.current
      && s.current.value in r.state.resources[rid].waitqueue
      && r.state.procs[s.current.value].status == Blocked
      && !OwnersNotWaiting(r.state)
  {
    var r := FcfsAcquire(s, rid);
    var q := r.state.resources[rid].waitqueue;
    assert q[|q| - 1] == s.current.value;
  }

  /** FCFS release keeps owners out of their own queues. */
  lemma FcfsReleaseKeepsOwnersNotWaiting(s: State, rid: nat)
    requires OwnersNotWaiting(s)
    requires rid < |s.resources|
    requires s.resources[rid].owner == s.current
    requires s.resources[rid].waitqueue != [] ==>
      s.resources[rid].waitqueue[0] in s.procs && s.procs[s.resources[rid].waitqueue[0]].status == Blocked
    ensures OwnersNotWaiting(FcfsRelease(s, rid))
  {
  }
}

=== FILE: bundles.dfy ===
/**
 * The scheduler bundles: each pairs one scheduling policy with one
 * acquire/release protocol under the name the simulator displays.
 */
module Bundles {
  import opened Optional
  import opened Queues
  import opened Processes
  import opened Arbitration
  import opened ArbitrationInvariants
  import opened Policies
  import opened PolicyInvariants

  datatype Scheduler =
    | FifoScheduler
    | SjfScheduler
    | StcfScheduler
    | RrScheduler
    | PrioScheduler
    | PaScheduler
    | PcpScheduler
    | PipScheduler

  /** What the bundle's schedule function dereferences and asserts. */
  predicate CanSchedule(b: Scheduler, s: State)
  {
    && (s.current.Some? ==> s.current.value in s.procs)
    && InTable(s.procs, s.ready)
    && match b
       case FifoScheduler => true
       case SjfScheduler => true
       case StcfScheduler => StcfSchedulable(s)
       case RrScheduler => true
       case _ => PrioSchedulable(s)
  }

  /**
   * The bundle's schedule function. The chosen process comes from the ready
   * queue or is the current one; resources are untouched.
   */
  function Schedule(b: Scheduler, s: State): (r: SchedResult)
    requires CanSchedule(b, s)
    ensures r.next.Some? ==> r.next.value in s.ready || r.next == s.current
    ensures r.state.resources == s.resources && r.state.current == s.current
    ensures r.state.procs.Keys == s.procs.Keys
  {
    match b
    case FifoScheduler => FifoSchedule(s)
    case SjfScheduler => SjfSchedule(s)
    case StcfScheduler => StcfSchedule(s)
    case RrScheduler => RrSchedule(s)
    case PrioScheduler => PrioSchedule(s)
    case PaScheduler => PaSchedule(s)
    case PcpScheduler => PrioSchedule(s)
    case PipScheduler => PrioSchedule(s)
  }

  /** What the bundle's acquire function dereferences. */
  predicate CanAcquire(b: Scheduler, s: State, rid: nat)
  {
    && rid < |s.resources|
    && (s.resources[rid].owner.Some? ==> s.resources[rid].owner.value in s.procs)
    && match b
       case PcpScheduler => s.current.Some? && s.current.value in s.procs
       case _ => s.resources[rid].owner.Some? ==> s.current.Some? && s.current.value in s.procs
  }

  /**
   * The bundle's acquire function: PCP and PIP adjust priorities first; all
   * of them grant exactly a free resource, to `current`, and otherwise block
   * `current` at the tail of the wait queue.
   */
  function Acquire(b: Scheduler, s: State, rid: nat): (r: Acquired)
    requires CanAcquire(b, s, rid)
    ensures |r.state.resources| == |s.resources|
    ensures r.state.procs.Keys == s.procs.Keys
    ensures r.state.ready == s.ready && r.state.current == s.current
    ensures forall k :: 0 <= k < |s.resources| && k != rid ==> r.state.resources[k] == s.resources[k]
    ensures r.granted <==> s.resources[rid].owner.None?
    ensures r.granted ==> r.state.resources[rid] == Resource(s.current, s.resources[rid].waitqueue)
    ensures r.granted && b.PcpScheduler? ==>
      var c := s.current.value;
      r.state.procs == s.procs[c := s.procs[c].(prio := MAX_PRIO)]
    ensures r.granted && !b.PcpScheduler? ==> r.state.procs == s.procs
    ensures !r.granted ==>
      && r.state.resources[rid].owner == s.resources[rid].owner
      && r.state.resources[rid].waitqueue == s.resources[rid].waitqueue + [s.current.value]
      && r.state.procs[s.current.value].status == Blocked
      && (forall p :: p in s.procs && Some(p) != s.current && Some(p) != s.resources[rid].owner ==>
            r.state.procs[p] == s.procs[p])
    ensures !r.granted && !b.PcpScheduler? && !b.PipScheduler? ==>
      var c := s.current.value;
      r.state.procs == s.procs[c := s.procs[c].(status := Blocked)]
    ensures !r.granted && b.PcpScheduler? ==>
      var o := s.resources[rid].owner.value;
      var c := s.current.value;
      var raised := s.procs[o := s.procs[o].(prio := MAX_PRIO)];
      r.state.procs == raised[c := raised[c].(status := Blocked)]
    ensures !r.granted && b.PipScheduler? ==>
      var o := s.resources[rid].owner.value;
      var c := s.current.value;
      var inherited := if s.procs[o].prio < s.procs[c].prio then s.procs[c].prio else s.procs[o].prio;
      var raised := s.procs[o := s.procs[o].(prio := inherited)];
      r.state.procs == raised[c := raised[c].(status := Blocked)]
  {
    match b
    case PcpScheduler => PcpAcquire(s, rid)
    case PipScheduler => PipAcquire(s, rid)
    case _ => FcfsAcquire(s, rid)
  }

  /** Whether the bundle releases through `prio_release` (priority-ordered wake-up). */
  predicate WakesByPriority(b: Scheduler)
  {
    b.PrioScheduler? || b.PaScheduler? || b.PcpScheduler? || b.PipScheduler?
  }

  /** What the bundle's release function dereferences and asserts. */
  predicate CanRelease(b: Scheduler, s: State, rid: nat)
  {
    && rid < |s.resources|
    && InTable(s.procs, s.resources[rid].waitqueue)
    && match b
       case PcpScheduler =>
         s.resources[rid].owner.Some? && s.resources[rid].owner.value in s.procs
         && PrioReleasable(RestoreOwner(s, rid), rid)
       case PipScheduler =>
         s.resources[rid].owner.Some? && s.resources[rid].owner.value in s.procs
         && PrioReleasable(RestoreOwner(s, rid), rid)
       case PrioScheduler => PrioReleasable(s, rid)
       case PaScheduler => PrioReleasable(s, rid)
       case _ =>
         s.resources[rid].owner == s.current
         && (s.resources[rid].waitqueue != [] ==> s.procs[s.resources[rid].waitqueue[0]].status == Blocked)
  }

  /** The priorities a bundle's release decides by: PCP and PIP first restore the owner's. */
  function PriosAtRelease(b: Scheduler, s: State, rid: nat): (r: State)
    requires CanRelease(b, s, rid)
    ensures r.ready == s.ready && r.resources == s.resources && r.current == s.current
    ensures r.procs.Keys == s.procs.Keys
    ensures !(b.PcpScheduler? || b.PipScheduler?) ==> r == s
  {
    if b.PcpScheduler? || b.PipScheduler? then RestoreOwner(s, rid) else s
  }

  /**
   * The bundle's release function: the resource becomes free; one waiter, if
   * any, moves to the tail of the ready queue: the first enqueued for the
   * FCFS bundles, the highest-priority one (first enqueued among equals) for
   * the priority bundles, PCP and PIP included. PCP and PIP first restore
   * the owner's original priority.
   */
  function Release(b: Scheduler, s: State, rid: nat): (r: State)
    requires CanRelease(b, s, rid)
    ensures |r.resources| == |s.resources| && r.current == s.current
    ensures r.procs.Keys == s.procs.Keys
    ensures r.resources[rid].owner.None?
    ensures forall k :: 0 <= k < |s.resources| && k != rid ==> r.resources[k] == s.resources[k]
    ensures s.resources[rid].waitqueue == [] ==>
      && r.ready == s.ready && r.resources[rid].waitqueue == []
      && r.procs == PriosAtRelease(b, s, rid).procs
    ensures s.resources[rid].waitqueue != [] && !WakesByPriority(b) ==>
      var w := s.resources[rid].waitqueue[0];
      && r.ready == s.ready + [w]
      && r.resources[rid].waitqueue == s.resources[rid].waitqueue[1..]
      && r.procs == s.procs[w := s.procs[w].(status := Ready)]
    ensures s.resources[rid].waitqueue != [] && WakesByPriority(b) ==> WokeHighest(PriosAtRelease(b, s, rid), rid, r)
    ensures (b.PcpScheduler? || b.PipScheduler?) ==>
      var o := s.resources[rid].owner.value;
      o in r.procs && r.procs[o].prio == s.procs[o].prioOrig
  {
    match b
    case PcpScheduler => PrioInitRelease(s, rid)
    case PipScheduler => PrioInitRelease(s, rid)
    case PrioScheduler => PrioRelease(s, rid)
    case PaScheduler => PrioRelease(s, rid)
    case _ => FcfsRelease(s, rid)
  }

  /**
   * Whatever the bundle, a scheduling decision installed as `current` keeps
   * the state well formed, and the chosen process is not left in the ready
   * queue.
   */
  lemma ScheduleKeepsValid(b: Scheduler, s: State)
    requires Valid(s) && CanSchedule(b, s)
    ensures var r := Schedule(b, s);
      Valid(Installed(r)) && (r.next.Some? ==> r.next.value !in r.state.ready)
  {
    match b
    case FifoScheduler => FifoKeepsValid(s);
    case SjfScheduler => SjfKeepsValid(s);
    case StcfScheduler => StcfKeepsValid(s);
    case RrScheduler => RrKeepsValid(s);
    case PrioScheduler => PrioKeepsValid(s);
    case PaScheduler => PaKeepsValid(s);
    case PcpScheduler => PrioKeepsValid(s);
    case PipScheduler => PrioKeepsValid(s);
  }

  /**
   * Whatever the bundle, when no process has run past its lifespan and the
   * ready queue holds only unfinished processes, a finished process is
   * neither chosen to run nor enqueued.
   */
  lemma ScheduleNeverRunsFinished(b: Scheduler, s: State)
    requires CanSchedule(b, s) && AgesBounded(s) && LiveReady(s)
    ensures var r := Schedule(b, s);
      && InTable(r.state.procs, r.state.ready) && LiveReady(r.state)
      && (r.next.Some? ==> r.next.value in s.procs && TicksLeft(s.procs[r.next.value]) > 0)
  {
    match b
    case FifoScheduler => FifoNeverRunsFinished(s);
    case SjfScheduler => SjfNeverRunsFinished(s);
    case StcfScheduler => StcfNeverRunsFinished(s);
    case RrScheduler => RrNeverRunsFinished(s);
    case PrioScheduler => PrioNeverRunsFinished(s);
    case PaScheduler =>
      PrioNeverRunsFinished(s);
      var r := PaSchedule(s);
      assert forall p :: p in s.procs ==> TicksLeft(r.state.procs[p]) == TicksLeft(s.procs[p]);
    case PcpScheduler => PrioNeverRunsFinished(s);
    case PipScheduler => PrioNeverRunsFinished(s);
  }

  /** Whatever the bundle, an acquire call by the running current process keeps the state well formed. */
  lemma AcquireKeepsValid(b: Scheduler, s: State, rid: nat)
    requires Valid(s) && rid < |s.resources|
    requires s.current.Some? && s.procs[s.current.value].status != Blocked
    ensures CanAcquire(b, s, rid)
    ensures Valid(Acquire(b, s, rid).state)
  {
    match b
    case PcpScheduler => PcpAcquireKeepsValid(s, rid);
    case PipScheduler => PipAcquireKeepsValid(s, rid);
    case _ => FcfsAcquireKeepsValid(s, rid);
  }

  /** Whatever the bundle, a release call by the running owner keeps the state well formed. */
  lemma ReleaseKeepsValid(b: Scheduler, s: State, rid: nat)
    requires Valid(s) && rid < |s.resources|
    requires s.current.Some? && s.procs[s.current.value].status != Blocked
    requires s.resources[rid].owner == s.current
    ensures CanRelease(b, s, rid)
    ensures Valid(Release(b, s, rid))
  {
    if b.PcpScheduler? || b.PipScheduler? {
      var o := s.current.value;
      SetPrioKeepsValid(s, o, s.procs[o].prioOrig);
      PrioReleaseKeepsValid(RestoreOwner(s, rid), rid);
    } else if b.PrioScheduler? || b.PaScheduler? {
      PrioReleaseKeepsValid(s, rid);
    } else {
      FcfsReleaseKeepsValid(s, rid);
    }
  }

  /**
   * Whatever the bundle, an acquire by a running process that does not own
   * the resource keeps every owner out of its own resource's wait queue.
   */
  lemma AcquireKeepsOwnersNotWaiting(b: Scheduler, s: State, rid: nat)
    requires Valid(s) && OwnersNotWaiting(s) && rid < |s.resources|
    requires s.current.Some? && s.procs[s.current.value].status != Blocked
    requires s.resources[rid].owner != s.current
    ensures CanAcquire(b, s, rid)
    ensures OwnersNotWaiting(Acquire(b, s, rid).state)
  {
    var res := s.resources[rid];
    match b {
      case PcpScheduler =>
        var p := if res.owner.None? then s.current.value else res.owner.value;
        SetPrioKeepsValid(s, p, MAX_PRIO);
        FcfsAcquireKeepsOwnersNotWaiting(SetPrio(s, p, MAX_PRIO), rid);
      case PipScheduler =>
        if res.owner.Some? && s.procs[res.owner.value].prio < s.procs[s.current.value].prio {
          var s1 := SetPrio(s, res.owner.value, s.procs[s.current.value].prio);
          SetPrioKeepsValid(s, res.owner.value, s.procs[s.current.value].prio);
          FcfsAcquireKeepsOwnersNotWaiting(s1, rid);
        } else {
          FcfsAcquireKeepsOwnersNotWaiting(s, rid);
        }
      case _ =>
        FcfsAcquireKeepsOwnersNotWaiting(s, rid);
    }
  }

  /** Whatever the bundle, a release keeps every owner out of its own resource's wait queue. */
  lemma ReleaseKeepsOwnersNotWaiting(b: Scheduler, s: State, rid: nat)
    requires OwnersNotWaiting(s) && CanRelease(b, s, rid)
    ensures OwnersNotWaiting(Release(b, s, rid))
  {
  }
}

=== FILE: frames.dfy ===
/**
 * Page-frame bookkeeping: `mapcounts[pfn]` is the number of mappings of
 * frame `pfn`; a frame with count 0 is free.
 */
module Frames {

  /** The search of `alloc_pf` from frame `i` on: the first free frame, or -1. */
  function FirstFree(mapcounts: seq<nat>, i: nat): (r: int)
    requires i <= |mapcounts|
    ensures r == -1 || i <= r < |mapcounts|
    ensures r == -1 <==> forall j :: i <= j < |mapcounts| ==> mapcounts[j] != 0
    ensures r != -1 ==> mapcounts[r] == 0 && forall j :: i <= j < r ==> mapcounts[j] != 0
    decreases |mapcounts| - i
  {
    if i == |mapcounts| then -1
    else if mapcounts[i] == 0 then i
    else FirstFree(mapcounts, i + 1)
  }

  /** Result of `alloc_pf`: the frame number (or -1) and the new map counts. */
  datatype Alloc = Alloc(pfn: int, mapcounts: seq<nat>)

  /**
   * `alloc_pf`: the smallest free frame gets count 1 and is returned; -1
   * when no frame is free. No other count changes.
   */
  function AllocPf(mapcounts: seq<nat>): (r: Alloc)
    ensures r.pfn == -1 <==> forall j :: 0 <= j < |mapcounts| ==> mapcounts[j] != 0
    ensures r.pfn == -1 ==> r.mapcounts == mapcounts
    ensures r.pfn != -1 ==>
      && 0 <= r.pfn < |mapcounts|
      && mapcounts[r.pfn] == 0
      && (forall j :: 0 <= j < r.pfn ==> mapcounts[j] != 0)
      && |r.mapcounts| == |mapcounts|
      && r.mapcounts[r.pfn] == 1
      && (forall j :: 0 <= j < |mapcounts| && j != r.pfn ==> r.mapcounts[j] == mapcounts[j])
  {
    var f := FirstFree(mapcounts, 0);
    if f == -1 then Alloc(-1, mapcounts)
    else Alloc(f, mapcounts[f := mapcounts[f] + 1])
  }

  /** Width of the C `unsigned int` map counters. */
  const UINT_RANGE: nat := 0x1_0000_0000

  /**
   * `free_pf` as written: the counter is decremented modulo 2^32 and the
   * test for a negative count, vacuous on an unsigned counter, never fails.
   */
  function FreePfAsWritten(mapcounts: seq<nat>, pfn: nat): (r: (bool, seq<nat>))
    requires pfn < |mapcounts| && mapcounts[pfn] < UINT_RANGE
    ensures r.0
    ensures |r.1| == |mapcounts| && r.1[pfn] < UINT_RANGE
    ensures mapcounts[pfn] > 0 ==> r.1 == mapcounts[pfn := mapcounts[pfn] - 1]
    ensures mapcounts[pfn] == 0 ==> r.1 == mapcounts[pfn := UINT_RANGE - 1]
  {
    (true, mapcounts[pfn := (mapcounts[pfn] - 1) % UINT_RANGE])
  }

  /** Freeing an unmapped frame as written reports success and wraps its count. */
  lemma FreeUnmappedFrameSucceeds()
    ensures FreePfAsWritten([0], 0) == (true, [0xFFFF_FFFF])
  {
    var r := FreePfAsWritten([0], 0);
    assert r.1[0] == 0xFFFF_FFFF;
    assert r.1 == [0xFFFF_FFFF];
  }

  /**
   * `free_pf` as evidently intended: drops one mapping of a mapped frame and
   * reports success; an unmapped frame is refused and nothing changes.
   */
  function FreePf(mapcounts: seq<nat>, pfn: nat): (r: (bool, seq<nat>))
    requires pfn < |mapcounts|
    ensures r.0 <==> mapcounts[pfn] > 0
    ensures !r.0 ==> r.1 == mapcounts
    ensures |r.1| == |mapcounts|
    ensures r.0 ==> r.1[pfn] == mapcounts[pfn] - 1
    ensures forall j :: 0 <= j < |mapcounts| && j != pfn ==> r.1[j] == mapcounts[j]
  {
    if mapcounts[pfn] == 0 then (false, mapcounts)
    else (true, mapcounts[pfn := mapcounts[pfn] - 1])
  }

  /** On a mapped frame the corrected and as-written versions agree. */
  lemma FreePfAgreesWhenMapped(mapcounts: seq<nat>, pfn: nat)
    requires pfn < |mapcounts| && 0 < mapcounts[pfn] < UINT_RANGE
    ensures FreePf(mapcounts, pfn) == FreePfAsWritten(mapcounts, pfn)
  {
  }

  /** Freeing the frame just allocated restores the counts. */
  lemma AllocThenFree(mapcounts: seq<nat>)
    requires AllocPf(mapcounts).pfn != -1
    ensures var a := AllocPf(mapcounts);
      FreePf(a.mapcounts, a.pfn as nat).1 == mapcounts
  {
    var a := AllocPf(mapcounts);
    assert FreePf(a.mapcounts, a.pfn as nat).1 == mapcounts[a.pfn := 0];
  }

  /** Allocation followed by a free of an unmapped frame is refused. */
  lemma FreeAfterFreeRefused(mapcounts: seq<nat>)
    requires AllocPf(mapcounts).pfn != -1
    ensures var a := AllocPf(mapcounts);
      var once := FreePf(a.mapcounts, a.pfn as nat).1;
      FreePf(once, a.pfn as nat) == (false, once)
  {
    AllocThenFree(mapcounts);
  }
}

=== FILE: optional.dfy ===
/** The Some/None datatype used wherever the C code returns a pointer that may be NULL. */
module Optional {

  datatype Option<+T> = None | Some(value: T)
}

=== FILE: paging.dfy ===
/**
 * Two-level page tables of the paging simulator, page allocation and
 * release, and the copy-on-write path of the page-fault handler. The
 * state is the TLB, the frame map counts and the page table `ptbr`
 * points at.
 */
module Paging {
  import opened Optional
  import opened Tlb
  import opened Frames

  /** Entries per page-table page: 1 << PTES_PER_PAGE_SHIFT with a shift of 4. */
  const NR_PTES_PER_PAGE: nat := 16

  /** A page-table entry; `private` keeps the original access bits for copy-on-write. */
  datatype Pte = Pte(valid: bool, rw: Access, private: Access, pfn: nat)

  /** Second-level page: NR_PTES_PER_PAGE entries. */
  type Directory = seq<Pte>

  /** Outer table: NR_PTES_PER_PAGE pointers to second-level pages, None for NULL. */
  type PageTable = seq<Option<Directory>>

  /** The state page-table operations act on. */
  datatype Mmu = Mmu(tlb: seq<TlbEntry>, mapcounts: seq<nat>, pt: PageTable)

  /** Both levels have NR_PTES_PER_PAGE entries. */
  predicate Shaped(pt: PageTable)
  {
    && |pt| == NR_PTES_PER_PAGE
    && forall i :: 0 <= i < |pt| && pt[i].Some? ==> |pt[i].value| == NR_PTES_PER_PAGE
  }

  /** vpns the outer table can index. */
  predicate InRange(vpn: nat)
  {
    vpn < NR_PTES_PER_PAGE * NR_PTES_PER_PAGE
  }

  /** Outer index of `vpn` (the slot `get_pt` returns). */
  function PdIndex(vpn: nat): (r: nat)
    ensures r * NR_PTES_PER_PAGE <= vpn < r * NR_PTES_PER_PAGE + NR_PTES_PER_PAGE
    ensures InRange(vpn) ==> r < NR_PTES_PER_PAGE
  {
    vpn / NR_PTES_PER_PAGE
  }

  /** Inner index of `vpn` (the entry `get_pte` returns). */
  function PteIndex(vpn: nat): (r: nat)
    ensures r < NR_PTES_PER_PAGE
    ensures PdIndex(vpn) * NR_PTES_PER_PAGE + r == vpn
  {
    vpn % NR_PTES_PER_PAGE
  }

  /** The two indices determine the vpn. */
  lemma SplitIsInjective(a: nat, b: nat)
    requires PdIndex(a) == PdIndex(b) && PteIndex(a) == PteIndex(b)
    ensures a == b
  {
    assert a == PdIndex(a) * NR_PTES_PER_PAGE + PteIndex(a);
  }

  /** `get_pt`: the second-level page covering `vpn`, None when absent. */
  function GetPt(pt: PageTable, vpn: nat): (r: Option<Directory>)
    requires Shaped(pt) && InRange(vpn)
    ensures forall d :: 0 <= d < |pt| && d * NR_PTES_PER_PAGE <= vpn < d * NR_PTES_PER_PAGE + NR_PTES_PER_PAGE ==>
      r == pt[d]
    ensures r.Some? ==> |r.value| == NR_PTES_PER_PAGE
  {
    pt[PdIndex(vpn)]
  }

  /** `get_pte`: the entry of `vpn` in a second-level page; None for an absent page. */
  function GetPte(dir: Option<Directory>, vpn: nat): (r: Option<Pte>)
    requires dir.Some? ==> |dir.value| == NR_PTES_PER_PAGE
    ensures r.None? <==> dir.None?
    ensures r.Some? ==> r.value == dir.value[vpn % NR_PTES_PER_PAGE]
  {
    if dir.None? then None else Some(dir.value[PteIndex(vpn)])
  }

  /** The PTE of `vpn` in the page table, None when its second-level page is absent. */
  function PteAt(pt: PageTable, vpn: nat): Option<Pte>
    requires Shaped(pt) && InRange(vpn)
  {
    GetPte(GetPt(pt, vpn), vpn)
  }

  /** The table with the PTE of `vpn` replaced in an existing second-level page. */
  function SetPte(pt: PageTable, vpn: nat, pte: Pte): (r: PageTable)
    requires Shaped(pt) && InRange(vpn) && GetPt(pt, vpn).Some?
    ensures Shaped(r)
    ensures PteAt(r, vpn) == Some(pte)
    ensures forall v :: InRange(v) && v != vpn ==> PteAt(r, v) == PteAt(pt, v)
  {
    var d := PdIndex(vpn);
    var r := pt[d := Some(pt[d].value[PteIndex(vpn) := pte])];
    assert forall v :: InRange(v) && v != vpn && PdIndex(v) == d ==> PteIndex(v) != PteIndex(vpn) by {
      forall v | InRange(v) && v != vpn && PdIndex(v) == d ensures PteIndex(v) != PteIndex(vpn) {
        if PteIndex(v) == PteIndex(vpn) {
          SplitIsInjective(v, vpn);
        }
      }
    }
    r
  }

  /**
   * A freshly allocated second-level page. `malloc` leaves it uninitialised;
   * the model starts every entry invalid.
   */
  function EmptyDirectory(): (r: Directory)
    ensures |r| == NR_PTES_PER_PAGE
    ensures forall j :: 0 <= j < |r| ==> !r[j].valid
  {
    seq(NR_PTES_PER_PAGE, _ => Pte(false, 0, 0, 0))
  }

  /** The table with a second-level page present for `vpn`. */
  function EnsureDirectory(pt: PageTable, vpn: nat): (r: PageTable)
    requires Shaped(pt) && InRange(vpn)
    ensures Shaped(r) && GetPt(r, vpn).Some?
    ensures forall v :: InRange(v) && PteAt(pt, v).Some? ==> PteAt(r, v) == PteAt(pt, v)
    ensures forall v :: InRange(v) && PteAt(pt, v).None? && PteAt(r, v).Some? ==> !PteAt(r, v).value.valid
  {
    var d := PdIndex(vpn);
    if pt[d].None? then pt[d := Some(EmptyDirectory())] else pt
  }

  /** Result of `alloc_page`: the new state and the frame mapped. */
  datatype Paged = Paged(mmu: Mmu, pfn: nat)

  /**
   * `alloc_page`: maps `vpn` to the smallest free frame, valid, with both
   * `rw` and `private` set to the requested access. The C code asserts a
   * frame is free. Other PTEs and the TLB are unchanged.
   */
  function AllocPage(s: Mmu, vpn: nat, rw: Access): (r: Paged)
    requires Shaped(s.pt) && InRange(vpn)
    requires AllocPf(s.mapcounts).pfn != -1
    ensures r.pfn < |s.mapcounts| && s.mapcounts[r.pfn] == 0
    ensures forall j :: 0 <= j < r.pfn ==> s.mapcounts[j] != 0
    ensures r.mmu.mapcounts == s.mapcounts[r.pfn := 1]
    ensures r.mmu.tlb == s.tlb
    ensures Shaped(r.mmu.pt)
    ensures PteAt(r.mmu.pt, vpn) == Some(Pte(true, rw, rw, r.pfn))
    ensures forall v :: InRange(v) && v != vpn && PteAt(s.pt, v).Some? ==> PteAt(r.mmu.pt, v) == PteAt(s.pt, v)
    ensures forall v :: InRange(v) && v != vpn && PteAt(s.pt, v).None? && PteAt(r.mmu.pt, v).Some? ==>
      !PteAt(r.mmu.pt, v).value.valid
  {
    var pt1 := EnsureDirectory(s.pt, vpn);
    var a := AllocPf(s.mapcounts);
    var pfn := a.pfn as nat;
    assert a.mapcounts == s.mapcounts[pfn := 1];
    Paged(Mmu(s.tlb, a.mapcounts, SetPte(pt1, vpn, Pte(true, rw, rw, pfn))), pfn)
  }

  /** What `free_page` dereferences: the second-level page exists and its frame is mapped. */
  predicate Freeable(s: Mmu, vpn: nat)
  {
    && Shaped(s.pt) && InRange(vpn)
    && GetPt(s.pt, vpn).Some?
    && PteAt(s.pt, vpn).value.pfn < |s.mapcounts|
    && s.mapcounts[PteAt(s.pt, vpn).value.pfn] > 0
  }

  /**
   * The part of `free_page` that does not touch map counts: the PTE's valid
   * bit is cleared (rw and pfn are left as they were) and the TLB entry found
   * for `vpn` is invalidated. The second-level page stays in place.
   */
  function Unmap(s: Mmu, vpn: nat): (r: Mmu)
    requires Shaped(s.pt) && InRange(vpn) && GetPt(s.pt, vpn).Some?
    ensures r.mapcounts == s.mapcounts
    ensures Shaped(r.pt) && PteAt(r.pt, vpn) == Some(PteAt(s.pt, vpn).value.(valid := false))
    ensures forall v :: InRange(v) && v != vpn ==> PteAt(r.pt, v) == PteAt(s.pt, v)
    ensures FindTlbe(s.tlb, vpn).None? ==> r.tlb == s.tlb
    ensures FindTlbe(s.tlb, vpn).Some? ==>
      var i := FindTlbe(s.tlb, vpn).value;
      r.tlb == s.tlb[i := s.tlb[i].(valid := false)]
    ensures Unique(s.tlb) ==> FindTlbe(r.tlb, vpn).None? && Unique(r.tlb)
  {
    var pte := PteAt(s.pt, vpn).value;
    var pt1 := SetPte(s.pt, vpn, pte.(valid := false));
    var tlb1 := match FindTlbe(s.tlb, vpn)
      case None => s.tlb
      case Some(i) => s.tlb[i := s.tlb[i].(valid := false)];
    assert Unique(s.tlb) ==> forall i :: 0 <= i < |tlb1| ==> !Hit(tlb1, i, vpn);
    Mmu(tlb1, s.mapcounts, pt1)
  }

  /**
   * `free_page` with the corrected `free_pf`: clears the PTE's valid bit,
   * drops one mapping of its frame and invalidates the TLB entry found for
   * `vpn`. The `assert` around `free_pf` demands that the frame is mapped.
   */
  function FreePage(s: Mmu, vpn: nat): (r: Mmu)
    requires Freeable(s, vpn)
    ensures var old_ := PteAt(s.pt, vpn).value;
      && Shaped(r.pt)
      && PteAt(r.pt, vpn) == Some(old_.(valid := false))
      && r.mapcounts == s.mapcounts[old_.pfn := s.mapcounts[old_.pfn] - 1]
    ensures forall v :: InRange(v) && v != vpn ==> PteAt(r.pt, v) == PteAt(s.pt, v)
    ensures FindTlbe(s.tlb, vpn).None? ==> r.tlb == s.tlb
    ensures FindTlbe(s.tlb, vpn).Some? ==>
      var i := FindTlbe(s.tlb, vpn).value;
      r.tlb == s.tlb[i := s.tlb[i].(valid := false)]
    ensures Unique(s.tlb) ==> FindTlbe(r.tlb, vpn).None? && Unique(r.tlb)
  {
    var freed := FreePf(s.mapcounts, PteAt(s.pt, vpn).value.pfn);
    Unmap(s, vpn).(mapcounts := freed.1)
  }

  /** What `free_page` as written dereferences: the page exists and its frame has a 32-bit count. */
  predicate FreeableAsWritten(s: Mmu, vpn: nat)
  {
    && Shaped(s.pt) && InRange(vpn)
    && GetPt(s.pt, vpn).Some?
    && PteAt(s.pt, vpn).value.pfn < |s.mapcounts|
    && s.mapcounts[PteAt(s.pt, vpn).value.pfn] < UINT_RANGE
  }

  /**
   * `free_page` as written, over `free_pf` as written: the `assert` never
   * fails, and a frame with no mapping left wraps to 0xFFFFFFFF.
   */
  function FreePageAsWritten(s: Mmu, vpn: nat): (r: Mmu)
    requires FreeableAsWritten(s, vpn)
    ensures var pfn := PteAt(s.pt, vpn).value.pfn;
      && Shaped(r.pt)
      && PteAt(r.pt, vpn) == Some(PteAt(s.pt, vpn).value.(valid := false))
      && (s.mapcounts[pfn] > 0 ==> r == FreePage(s, vpn))
      && (s.mapcounts[pfn] == 0 ==> r.mapcounts == s.mapcounts[pfn := UINT_RANGE - 1])
    ensures forall v :: InRange(v) && v != vpn ==> PteAt(r.pt, v) == PteAt(s.pt, v)
    ensures FindTlbe(s.tlb, vpn).None? ==> r.tlb == s.tlb
    ensures FindTlbe(s.tlb, vpn).Some? ==>
      var i := FindTlbe(s.tlb, vpn).value;
      r.tlb == s.tlb[i := s.tlb[i].(valid := false)]
  {
    var freed := FreePfAsWritten(s.mapcounts, PteAt(s.pt, vpn).value.pfn);
    Unmap(s, vpn).(mapcounts := freed.1)
  }

  /**
   * As written, a second `free_page` of a vpn whose frame had one mapping is
   * not caught: the frame's count wraps to 0xFFFFFFFF instead of the
   * `assert` failing.
   */
  lemma SecondFreeWraps(s: Mmu, vpn: nat)
    requires Freeable(s, vpn) && s.mapcounts[PteAt(s.pt, vpn).value.pfn] == 1
    ensures var once := FreePage(s, vpn);
      && FreeableAsWritten(once, vpn)
      && !Freeable(once, vpn)
      && FreePageAsWritten(once, vpn).mapcounts[PteAt(s.pt, vpn).value.pfn] == 0xFFFF_FFFF
  {
    var pfn := PteAt(s.pt, vpn).value.pfn;
    var once := FreePage(s, vpn);
    assert PteAt(once.pt, vpn).value.pfn == pfn;
    assert once.mapcounts[pfn] == 0;
  }

  /** Freeing a page right after allocating it restores the map counts and leaves the PTE invalid. */
  lemma AllocThenFreePage(s: Mmu, vpn: nat, rw: Access)
    requires Shaped(s.pt) && InRange(vpn) && AllocPf(s.mapcounts).pfn != -1
    ensures var a := AllocPage(s, vpn, rw);
      && Freeable(a.mmu, vpn)
      && FreePage(a.mmu, vpn).mapcounts == s.mapcounts
      && PteAt(FreePage(a.mmu, vpn).pt, vpn) == Some(Pte(false, rw, rw, a.pfn))
  {
    var a := AllocPage(s, vpn, rw);
    assert a.mmu.mapcounts[a.pfn := 0] == s.mapcounts;
  }

  /** Unsigned 32-bit conversion, as when C stores the int -1 in an unsigned field. */
  function ToUnsigned(x: int): (r: nat)
    ensures r < 0x1_0000_0000
    ensures 0 <= x < 0x1_0000_0000 ==> r == x
    ensures x == -1 ==> r == 0xFFFF_FFFF
  {
    x % 0x1_0000_0000
  }

  /** A write to a page mapped read-only whose original access was read+write: the copy-on-write case. */
  predicate CowTriggered(pte: Pte, rw: Access)
  {
    pte.rw == ACCESS_READ && pte.private == ACCESS_READ + ACCESS_WRITE && rw == ACCESS_WRITE
  }

  /** Result of the fault handler: the new state and whether the fault was handled. */
  datatype Fault = Fault(mmu: Mmu, handled: bool)

  /** What the copy-on-write branch dereferences: an existing page, and a frame in range when triggered. */
  predicate CowHandleable(s: Mmu, vpn: nat, rw: Access)
  {
    && Shaped(s.pt) && InRange(vpn)
    && GetPt(s.pt, vpn).Some?
    && (CowTriggered(PteAt(s.pt, vpn).value, rw) ==> PteAt(s.pt, vpn).value.pfn < |s.mapcounts|)
  }

  /**
   * `handle_page_fault` on a vpn whose second-level page exists. A copy-on-write
   * fault on a shared frame (count above 1) drops one mapping of it and
   * moves the PTE to a newly allocated frame (the int -1 of a failed
   * allocation lands as 0xFFFFFFFF); in every copy-on-write case the PTE
   * regains its original access bits and the fault is handled. Any other
   * fault is not handled and changes nothing. The TLB is not touched.
   */
  function HandlePageFault(s: Mmu, vpn: nat, rw: Access): (r: Fault)
    requires CowHandleable(s, vpn, rw)
    ensures var pte := PteAt(s.pt, vpn).value;
      && (r.handled <==> CowTriggered(pte, rw))
      && (!r.handled ==> r.mmu == s)
    ensures r.mmu.tlb == s.tlb && Shaped(r.mmu.pt)
    ensures forall v :: InRange(v) && v != vpn ==> PteAt(r.mmu.pt, v) == PteAt(s.pt, v)
    ensures var pte := PteAt(s.pt, vpn).value;
      CowTriggered(pte, rw) && s.mapcounts[pte.pfn] <= 1 ==>
        r.mmu.mapcounts == s.mapcounts && PteAt(r.mmu.pt, vpn) == Some(pte.(rw := pte.private))
    ensures var pte := PteAt(s.pt, vpn).value;
      CowTriggered(pte, rw) && s.mapcounts[pte.pfn] > 1 ==>
        var dropped := s.mapcounts[pte.pfn := s.mapcounts[pte.pfn] - 1];
        var a := AllocPf(dropped);
        && r.mmu.mapcounts == a.mapcounts
        && PteAt(r.mmu.pt, vpn) == Some(Pte(true, pte.private, pte.private, ToUnsigned(a.pfn)))
        && (a.pfn != -1 ==> a.pfn != pte.pfn)
  {
    var pte := PteAt(s.pt, vpn).value;
    if !CowTriggered(pte, rw) then Fault(s, false)
    else if s.mapcounts[pte.pfn] > 1 then
      var dropped := s.mapcounts[pte.pfn := s.mapcounts[pte.pfn] - 1];
      var a := AllocPf(dropped);
      var moved := pte.(pfn := ToUnsigned(a.pfn), valid := true, rw := pte.private);
      Fault(Mmu(s.tlb, a.mapcounts, SetPte(s.pt, vpn, moved)), true)
    else
      Fault(s.(pt := SetPte(s.pt, vpn, pte.(rw := pte.private))), true)
  }
}

=== FILE: policies.dfy ===
/**
 * The six scheduling policies of the simulator. Each returns the process to
 * run in the next tick (None when the machine idles) together with the
 * updated state; the returned process is unlinked from the ready queue.
 * Installing the result as `current` is the driver's job.
 */
module Policies {
  import opened Optional
  import opened Queues
  import opened Processes

  /** The state after a scheduling decision and the process chosen to run. */
  datatype SchedResult = SchedResult(state: State, next: Option<Pid>)

  /** The current process exists and is not BLOCKED. */
  predicate Runnable(s: State)
    requires s.current.Some? ==> s.current.value in s.procs
  {
    s.current.Some? && s.procs[s.current.value].status != Blocked
  }

  /** Remaining ticks of the current process. */
  function CurrentLeft(s: State): int
    requires s.current.Some? && s.current.value in s.procs
  {
    TicksLeft(s.procs[s.current.value])
  }

  /** Unlinks the ready process at position `i` and chooses it. */
  function Take(s: State, i: nat): (r: SchedResult)
    requires i < |s.ready|
    ensures r.next == Some(s.ready[i])
    ensures r.state == s.(ready := RemoveAt(s.ready, i))
  {
    SchedResult(s.(ready := RemoveAt(s.ready, i)), Some(s.ready[i]))
  }

  /*********************************************************************
   * FIFO
   *********************************************************************/

  /**
   * FIFO keeps a current process that is not BLOCKED and has age below its
   * lifespan; otherwise it dequeues the head of the ready queue, or idles.
   */
  function FifoSchedule(s: State): (r: SchedResult)
    requires s.current.Some? ==> s.current.value in s.procs
    ensures var keep := Runnable(s) && s.procs[s.current.value].age < s.procs[s.current.value].lifespan;
      && (keep ==> r == SchedResult(s, s.current))
      && (!keep && s.ready == [] ==> r == SchedResult(s, None))
      && (!keep && s.ready != [] ==> r.next == Some(s.ready[0]) && r.state == s.(ready := s.ready[1..]))
  {
    if !Runnable(s) then FifoPick(s)
    else if s.procs[s.current.value].age < s.procs[s.current.value].lifespan then SchedResult(s, s.current)
    else FifoPick(s)
  }

  /** The `pick_next` part of the FIFO scheduler. */
  function FifoPick(s: State): (r: SchedResult)
    ensures s.ready == [] ==> r == SchedResult(s, None)
    ensures s.ready != [] ==> r.next == Some(s.ready[0]) && r.state == s.(ready := s.ready[1..])
  {
    if s.ready == [] then SchedResult(s, None)
    else
      assert RemoveAt(s.ready, 0) == s.ready[1..];
      Take(s, 0)
  }

  /*********************************************************************
   * Shortest-Job First
   *********************************************************************/

  /** Position of the ready process with the smallest lifespan, first on ties. */
  function ShortestJob(s: State): (i: nat)
    requires InTable(s.procs, s.ready) && s.ready != []
    ensures i < |s.ready|
    ensures forall j :: 0 <= j < |s.ready| ==> s.procs[s.ready[i]].lifespan <= s.procs[s.ready[j]].lifespan
    ensures forall j :: 0 <= j < i ==> s.procs[s.ready[j]].lifespan > s.procs[s.ready[i]].lifespan
  {
    var i := FindProcess(s.procs, s.ready, SMALLEST, Lifespan).value;
    assert forall j :: 0 <= j < |s.ready| ==> KeyAt(s.procs, s.ready, Lifespan, j) == s.procs[s.ready[j]].lifespan;
    i
  }

  /**
   * SJF is non-preemptive: a current process with ticks left keeps running
   * (whatever its status); otherwise the ready process with the smallest
   * lifespan is unlinked and chosen.
   */
  function SjfSchedule(s: State): (r: SchedResult)
    requires s.current.Some? ==> s.current.value in s.procs
    requires InTable(s.procs, s.ready)
    ensures s.current.Some? && CurrentLeft(s) > 0 ==> r == SchedResult(s, s.current)
    ensures !(s.current.Some? && CurrentLeft(s) > 0) && s.ready == [] ==> r == SchedResult(s, None)
    ensures !(s.current.Some? && CurrentLeft(s) > 0) && s.ready != [] ==>
      exists i :: 0 <= i < |s.ready|
        && (forall j :: 0 <= j < |s.ready| ==> s.procs[s.ready[i]].lifespan <= s.procs[s.ready[j]].lifespan)
        && (forall j :: 0 <= j < i ==> s.procs[s.ready[j]].lifespan > s.procs[s.ready[i]].lifespan)
        && r.next == Some(s.ready[i])
        && r.state == s.(ready := RemoveAt(s.ready, i))
  {
    if s.current.Some? && CurrentLeft(s) > 0 then SchedResult(s, s.current)
    else if s.ready == [] then SchedResult(s, None)
    else Take(s, ShortestJob(s))
  }

  /*********************************************************************
   * Shortest Time-to-Complete First
   *********************************************************************/

  /** Position of the ready process with the fewest ticks left, first on ties. */
  function ShortestToComplete(s: State): (i: nat)
    requires InTable(s.procs, s.ready) && s.ready != []
    ensures i < |s.ready|
    ensures forall j :: 0 <= j < |s.ready| ==> TicksLeft(s.procs[s.ready[i]]) <= TicksLeft(s.procs[s.ready[j]])
    ensures forall j :: 0 <= j < i ==> TicksLeft(s.procs[s.ready[j]]) > TicksLeft(s.procs[s.ready[i]])
  {
    var i := FindProcess(s.procs, s.ready, SMALLEST, TicksLeft).value;
    assert forall j :: 0 <= j < |s.ready| ==> KeyAt(s.procs, s.ready, TicksLeft, j) == TicksLeft(s.procs[s.ready[j]]);
    i
  }

  /** What `stcf_schedule` dereferences: `current` when the ready queue is empty. */
  predicate StcfSchedulable(s: State)
  {
    && (s.current.Some? ==> s.current.value in s.procs)
    && InTable(s.procs, s.ready)
    && (s.ready == [] ==> s.current.Some?)
  }

  /**
   * STCF is preemptive: with an empty ready queue the current process runs
   * on while it has ticks left (its status is not examined). Otherwise the
   * candidate with the fewest ticks left replaces a missing or BLOCKED
   * current, preempts a current with strictly more ticks left (which goes to
   * the HEAD of the ready queue), or replaces a finished current; on a tie an
   * unfinished current is kept.
   */
  function StcfSchedule(s: State): (r: SchedResult)
    requires StcfSchedulable(s)
    ensures s.ready == [] ==> r == SchedResult(s, if CurrentLeft(s) > 0 then s.current else None)
    ensures s.ready != [] ==>
      var i := ShortestToComplete(s);
      var cand := s.procs[s.ready[i]];
      && (!Runnable(s) ==> r == Take(s, i))
      && (Runnable(s) && TicksLeft(cand) < CurrentLeft(s) ==>
            r.next == Some(s.ready[i]) && r.state == s.(ready := [s.current.value] + RemoveAt(s.ready, i)))
      && (Runnable(s) && TicksLeft(cand) >= CurrentLeft(s) && CurrentLeft(s) > 0 ==>
            r == SchedResult(s, s.current))
      && (Runnable(s) && TicksLeft(cand) >= CurrentLeft(s) && CurrentLeft(s) <= 0 ==> r == Take(s, i))
  {
    if s.ready == [] then
      SchedResult(s, if CurrentLeft(s) > 0 then s.current else None)
    else
      var i := ShortestToComplete(s);
      if !Runnable(s) then Take(s, i)
      else if TicksLeft(s.procs[s.ready[i]]) < CurrentLeft(s) then
        var s1 := s.(ready := [s.current.value] + s.ready);
        assert RemoveAt(s1.ready, i + 1) == [s.current.value] + RemoveAt(s.ready, i);
        SchedResult(s1.(ready := RemoveAt(s1.ready, i + 1)), Some(s.ready[i]))
      else if CurrentLeft(s) > 0 then SchedResult(s, s.current)
      else Take(s, i)
  }

  /*********************************************************************
   * Round-Robin
   *********************************************************************/

  /** The current process is present, not BLOCKED and not finished. */
  predicate Uncompleted(s: State)
    requires s.current.Some? ==> s.current.value in s.procs
  {
    Runnable(s) && CurrentLeft(s) > 0
  }

  /**
   * Round-Robin: an uncompleted current process yields to the ready-queue
   * head and is appended to the tail; with an empty ready queue it keeps
   * running, and a completed or blocked one leaves the machine idle.
   */
  function RrSchedule(s: State): (r: SchedResult)
    requires s.current.Some? ==> s.current.value in s.procs
    ensures s.ready == [] ==> r == SchedResult(s, if Uncompleted(s) then s.current else None)
    ensures s.ready != [] ==> r.next == Some(s.ready[0])
    ensures s.ready != [] && Uncompleted(s) ==> r.state == s.(ready := s.ready[1..] + [s.current.value])
    ensures s.ready != [] && !Uncompleted(s) ==> r.state == s.(ready := s.ready[1..])
  {
    if s.ready == [] then SchedResult(s, if Uncompleted(s) then s.current else None)
    else
      var q := if Uncompleted(s) then s.ready + [s.current.value] else s.ready;
      assert RemoveAt(q, 0) == q[1..];
      SchedResult(s.(ready := RemoveAt(q, 0)), Some(q[0]))
  }

  /*********************************************************************
   * Priority
   *********************************************************************/

  /** Position of the ready process with the highest priority, first on ties. */
  function HighestPrio(s: State): (i: nat)
    requires InTable(s.procs, s.ready) && s.ready != []
    ensures i < |s.ready|
    ensures forall j :: 0 <= j < |s.ready| ==> s.procs[s.ready[j]].prio <= s.procs[s.ready[i]].prio
    ensures forall j :: 0 <= j < i ==> s.procs[s.ready[j]].prio < s.procs[s.ready[i]].prio
  {
    var i := FindProcess(s.procs, s.ready, LARGEST, Prio).value;
    assert forall j :: 0 <= j < |s.ready| ==> KeyAt(s.procs, s.ready, Prio, j) == s.procs[s.ready[j]].prio;
    i
  }

  /**
   * What the assertions and dereferences of `prio_schedule` demand: with an
   * empty ready queue there is an unlinked current process; otherwise the
   * chosen process is READY and a current process that is not BLOCKED is
   * unlinked.
   */
  predicate PrioSchedulable(s: State)
  {
    && (s.current.Some? ==> s.current.value in s.procs)
    && InTable(s.procs, s.ready)
    && (s.ready == [] ==> s.current.Some? && !Linked(s, s.current.value))
    && (s.ready != [] ==> s.procs[s.ready[HighestPrio(s)]].status == Ready)
    && (s.ready != [] && Runnable(s) ==> !Linked(s, s.current.value))
  }

  /**
   * Priority scheduling: the highest-priority ready process preempts the
   * current one when its priority is at least as high (equal priority
   * preempts); a preempted current with ticks left goes to the tail of the
   * ready queue. A missing or BLOCKED current is replaced unconditionally, a
   * finished one is replaced; an empty ready queue keeps a current with
   * ticks left.
   */
  function PrioSchedule(s: State): (r: SchedResult)
    requires PrioSchedulable(s)
    ensures r.state.procs == s.procs && r.state.resources == s.resources && r.state.current == s.current
    ensures s.ready == [] ==> r == SchedResult(s, if CurrentLeft(s) > 0 then s.current else None)
    ensures s.ready != [] ==>
      var i := HighestPrio(s);
      var cand := s.procs[s.ready[i]];
      && (!Runnable(s) ==> r == Take(s, i))
      && (Runnable(s) && cand.prio >= s.procs[s.current.value].prio && CurrentLeft(s) > 0 ==>
            r.next == Some(s.ready[i]) && r.state == s.(ready := RemoveAt(s.ready, i) + [s.current.value]))
      && (Runnable(s) && cand.prio >= s.procs[s.current.value].prio && CurrentLeft(s) <= 0 ==>
            r == Take(s, i))
      && (Runnable(s) && cand.prio < s.procs[s.current.value].prio && CurrentLeft(s) > 0 ==>
            r == SchedResult(s, s.current))
      && (Runnable(s) && cand.prio < s.procs[s.current.value].prio && CurrentLeft(s) <= 0 ==>
            r == Take(s, i))
  {
    if s.ready == [] then
      SchedResult(s, if CurrentLeft(s) > 0 then s.current else None)
    else
      var i := HighestPrio(s);
      if !Runnable(s) then Take(s, i)
      else if s.procs[s.ready[i]].prio >= s.procs[s.current.value].prio then
        if CurrentLeft(s) > 0 then
          var q := s.ready + [s.current.value];
          assert RemoveAt(q, i) == RemoveAt(s.ready, i) + [s.current.value];
          SchedResult(s.(ready := RemoveAt(q, i)), Some(s.ready[i]))
        else Take(s, i)
      else if CurrentLeft(s) > 0 then SchedResult(s, s.current)
      else Take(s, i)
  }

  /*********************************************************************
   * Priority with aging
   *********************************************************************/

  /**
   * `prio_aging_except`: every ready-queue entry other than `except` has its
   * priority raised by one (an entry listed twice would be raised twice).
   */
  function AgeExcept(procs: map<Pid, Process>, q: seq<Pid>, except: Pid): (r: map<Pid, Process>)
    requires InTable(procs, q)
    ensures r.Keys == procs.Keys
    ensures forall p :: p in procs ==>
      r[p] == procs[p].(prio := procs[p].prio + (if p == except then 0 else multiset(q)[p]))
    decreases |q|
  {
    if q == [] then procs
    else
      var p := q[0];
      var procs1 := if p != except then procs[p := procs[p].(prio := procs[p].prio + 1)] else procs;
      assert q == [p] + q[1..];
      AgeExcept(procs1, q[1..], except)
  }

  /** The process chosen by priority scheduling and every ready one afterwards come from the table. */
  lemma PrioChoiceInTable(s: State)
    requires PrioSchedulable(s)
    ensures var r := PrioSchedule(s);
      && (r.next.Some? ==> r.next.value in s.procs)
      && InTable(s.procs, r.state.ready)
  {
    var r := PrioSchedule(s);
    if r.next.Some? && Some(r.next.value) != s.current {
      assert r.next.value in s.ready;
    }
    forall j | 0 <= j < |r.state.ready| ensures r.state.ready[j] in s.procs {
      assert r.state.ready[j] in s.ready || Some(r.state.ready[j]) == s.current;
    }
  }

  /** The aging step after a decision for `n`: the other ready processes age, `n` gets its original priority. */
  function AgeAfter(s: State, n: Pid): (r: State)
    requires n in s.procs && InTable(s.procs, s.ready)
    ensures r == s.(procs := r.procs)
    ensures r.procs.Keys == s.procs.Keys
    ensures forall p :: p in s.procs ==>
      && r.procs[p].prio == (if p == n then s.procs[p].prioOrig else s.procs[p].prio + multiset(s.ready)[p])
      && r.procs[p] == s.procs[p].(prio := r.procs[p].prio)
  {
    var aged := AgeExcept(s.procs, s.ready, n);
    s.(procs := aged[n := aged[n].(prio := aged[n].prioOrig)])
  }

  /**
   * Priority with aging: the priority decision, then every process left in
   * the ready queue other than the chosen one gains one priority step, and
   * the chosen one is reset to its original priority. No cap applies.
   */
  function PaSchedule(s: State): (r: SchedResult)
    requires PrioSchedulable(s)
    ensures r.next == PrioSchedule(s).next
    ensures r.state.ready == PrioSchedule(s).state.ready
    ensures r.state.resources == s.resources && r.state.current == s.current
    ensures r.state.procs.Keys == s.procs.Keys
    ensures r.next.None? ==> r.state.procs == s.procs
    ensures r.next.Some? ==> forall p :: p in s.procs ==>
      && r.state.procs[p].prio ==
           (if p == r.next.value then s.procs[p].prioOrig else s.procs[p].prio + multiset(r.state.ready)[p])
      && r.state.procs[p] == s.procs[p].(prio := r.state.procs[p].prio)
  {
    var r0 := PrioSchedule(s);
    PrioChoiceInTable(s);
    if r0.next.None? then r0
    else SchedResult(AgeAfter(r0.state, r0.next.value), r0.next)
  }
}

=== FILE: policy_invariants.dfy ===
/**
 * Properties of the scheduling policies that hold across a tick: installing
 * the chosen process as `current` keeps the state well formed, the chosen
 * process is never left in the ready queue, and a finished process is
 * neither chosen nor enqueued.
 */
module PolicyInvariants {
  import opened Optional
  import opened Queues
  import opened Processes
  import opened Policies

  /** The driver's step after a decision: the chosen process becomes `current`. */
  function Installed(r: SchedResult): State
  {
    r.state.(current := r.next)
  }

  /** Every process waiting in the ready queue still has work to do. */
  ghost predicate LiveReady(s: State)
    requires InTable(s.procs, s.ready)
  {
    forall j :: 0 <= j < |s.ready| ==> TicksLeft(s.procs[s.ready[j]]) > 0
  }

  /**
   * A decision that only reorders the ready queue, drawing from the old ready
   * queue and the old current process, keeps the state well formed once the
   * chosen process is installed.
   */
  lemma InstallKeepsValid(s: State, t: State, n: Option<Pid>)
    requires Valid(s)
    requires t.procs == s.procs && t.resources == s.resources
    requires forall p :: p in t.ready ==> p in s.ready || Some(p) == s.current
    requires Distinct(t.ready)
    requires s.current.Some? && s.current.value in t.ready ==> s.procs[s.current.value].status != Blocked
    requires n.Some? ==> n.value !in t.ready && (n.value in s.ready || n == s.current)
    ensures Valid(t.(current := n))
  {
    var t' := t.(current := n);
    assert InTable(t.procs, t.ready) by {
      forall j | 0 <= j < |t.ready| ensures t.ready[j] in t.procs {
        assert t.ready[j] in t.ready;
      }
    }
    forall r, p | 0 <= r < |s.resources| && p in s.resources[r].waitqueue
      ensures p !in t'.ready
    {
      assert s.procs[p].status == Blocked;
      assert p !in s.ready;
    }
    if n.Some? && s.procs[n.value].status != Blocked {
      forall r | 0 <= r < |t'.resources| ensures n.value !in t'.resources[r].waitqueue {
        assert n.value in s.ready || !Linked(s, n.value);
      }
    }
  }

  /** Choosing the ready process at position `i` keeps the state well formed. */
  lemma TakeKeepsValid(s: State, i: nat)
    requires Valid(s) && i < |s.ready|
    ensures Valid(Installed(Take(s, i)))
    ensures s.ready[i] !in Take(s, i).state.ready
  {
    RemoveAtMembers(s.ready, i);
    InstallKeepsValid(s, Take(s, i).state, Some(s.ready[i]));
  }

  /** Choosing position `i` and re-enqueueing the running current process (head or tail) keeps the state well formed. */
  lemma PreemptKeepsValid(s: State, i: nat, atHead: bool)
    requires Valid(s) && i < |s.ready|
    requires Runnable(s)
    ensures var c := s.current.value;
      var q := if atHead then [c] + RemoveAt(s.ready, i) else RemoveAt(s.ready, i) + [c];
      Valid(s.(ready := q, current := Some(s.ready[i]))) && s.ready[i] !in q
  {
    var c := s.current.value;
    RemoveAtMembers(s.ready, i);
    assert !Linked(s, c);
    var q := if atHead then [c] + RemoveAt(s.ready, i) else RemoveAt(s.ready, i) + [c];
    if atHead {
      PushDistinct(RemoveAt(s.ready, i), c);
    } else {
      AppendDistinct(RemoveAt(s.ready, i), c);
    }
    assert s.ready[i] != c;
    InstallKeepsValid(s, s.(ready := q), Some(s.ready[i]));
  }

  /** Keeping the current process or idling keeps the state well formed. */
  lemma StayKeepsValid(s: State, n: Option<Pid>)
    requires Valid(s)
    requires n == s.current || n.None?
    ensures Valid(Installed(SchedResult(s, n)))
    ensures n.Some? ==> n.value !in s.ready
  {
    if n.Some? {
      assert n.value in s.procs;
    }
    InstallKeepsValid(s, s, n);
  }

  lemma FifoKeepsValid(s: State)
    requires Valid(s)
    ensures var r := FifoSchedule(s);
      Valid(Installed(r)) && (r.next.Some? ==> r.next.value !in r.state.ready)
  {
    var r := FifoSchedule(s);
    if (Runnable(s) && s.procs[s.current.value].age < s.procs[s.current.value].lifespan) || s.ready == [] {
      StayKeepsValid(s, r.next);
    } else {
      assert RemoveAt(s.ready, 0) == s.ready[1..];
      TakeKeepsValid(s, 0);
    }
  }

  lemma SjfKeepsValid(s: State)
    requires Valid(s)
    ensures var r := SjfSchedule(s);
      Valid(Installed(r)) && (r.next.Some? ==> r.next.value !in r.state.ready)
  {
    if (s.current.Some? && CurrentLeft(s) > 0) || s.ready == [] {
      StayKeepsValid(s, SjfSchedule(s).next);
    } else {
      TakeKeepsValid(s, ShortestJob(s));
    }
  }

  lemma StcfKeepsValid(s: State)
    requires Valid(s) && StcfSchedulable(s)
    ensures var r := StcfSchedule(s);
      Valid(Installed(r)) && (r.next.Some? ==> r.next.value !in r.state.ready)
  {
    var r := StcfSchedule(s);
    if s.ready == [] {
      StayKeepsValid(s, r.next);
    } else {
      var i := ShortestToComplete(s);
      if !Runnable(s) {
        TakeKeepsValid(s, i);
      } else if TicksLeft(s.procs[s.ready[i]]) < CurrentLeft(s) {
        PreemptKeepsValid(s, i, true);
      } else if CurrentLeft(s) > 0 {
        StayKeepsValid(s, r.next);
      } else {
        TakeKeepsValid(s, i);
      }
    }
  }

  lemma RrKeepsValid(s: State)
    requires Valid(s)
    ensures var r := RrSchedule(s);
      Valid(Installed(r)) && (r.next.Some? ==> r.next.value !in r.state.ready)
  {
    var r := RrSchedule(s);
    if s.ready == [] {
      StayKeepsValid(s, r.next);
    } else if Uncompleted(s) {
      assert RemoveAt(s.ready, 0) == s.ready[1..];
      PreemptKeepsValid(s, 0, false);
    } else {
      assert RemoveAt(s.ready, 0) == s.ready[1..];
      TakeKeepsValid(s, 0);
    }
  }

  lemma PrioKeepsValid(s: State)
    requires Valid(s) && PrioSchedulable(s)
    ensures var r := PrioSchedule(s);
      Valid(Installed(r)) && (r.next.Some? ==> r.next.value !in r.state.ready)
  {
    var r := PrioSchedule(s);
    if s.ready == [] {
      StayKeepsValid(s, r.next);
    } else {
      var i := HighestPrio(s);
      if !Runnable(s) {
        TakeKeepsValid(s, i);
      } else if s.procs[s.ready[i]].prio >= s.procs[s.current.value].prio && CurrentLeft(s) > 0 {
        PreemptKeepsValid(s, i, false);
      } else if s.procs[s.ready[i]].prio < s.procs[s.current.value].prio && CurrentLeft(s) > 0 {
        StayKeepsValid(s, r.next);
      } else {
        TakeKeepsValid(s, i);
      }
    }
  }

  /** A handle listed once in a queue is counted once by the queue's multiset. */
  lemma {:induction false} DistinctCountsOnce(q: seq<Pid>, p: Pid)
    requires Distinct(q)
    ensures multiset(q)[p] == if p in q then 1 else 0
    decreases |q|
  {
    if q != [] {
      assert q == [q[0]] + q[1..];
      assert Distinct(q[1..]) by {
        forall i, j | 0 <= i < |q[1..]| && 0 <= j < |q[1..]| && i != j ensures q[1..][i] != q[1..][j] {
          assert q[1..][i] == q[i + 1] && q[1..][j] == q[j + 1];
        }
      }
      DistinctCountsOnce(q[1..], p);
      if p == q[0] {
        assert p !in q[1..] by {
          forall k | 0 <= k < |q[1..]| ensures q[1..][k] != p {
            assert q[1..][k] == q[k + 1];
          }
        }
      }
    }
  }

  /** Changing only priorities keeps a state well formed. */
  lemma PrioritiesOnlyKeepValid(s: State, t: State)
    requires Valid(s)
    requires t.ready == s.ready && t.resources == s.resources && t.current == s.current
    requires t.procs.Keys == s.procs.Keys
    requires forall p :: p in s.procs ==> t.procs[p].status == s.procs[p].status
    ensures Valid(t)
  {
    assert forall p :: Linked(t, p) <==> Linked(s, p);
  }

  /** Priority with aging keeps the state well formed, like plain priority scheduling. */
  lemma PaKeepsValid(s: State)
    requires Valid(s) && PrioSchedulable(s)
    ensures var r := PaSchedule(s);
      Valid(Installed(r)) && (r.next.Some? ==> r.next.value !in r.state.ready)
  {
    var r := PaSchedule(s);
    var r0 := PrioSchedule(s);
    PrioKeepsValid(s);
    PrioritiesOnlyKeepValid(Installed(r0), Installed(r));
  }

  /**
   * On a well-formed state, aging raises every process left waiting in the
   * ready queue by exactly one step, resets the chosen one to its original
   * priority, and leaves every other priority alone.
   */
  lemma PaAgesByOne(s: State)
    requires Valid(s) && PrioSchedulable(s)
    ensures var r := PaSchedule(s);
      r.next.Some? ==> forall p :: p in s.procs ==>
        r.state.procs[p].prio ==
          (if p == r.next.value then s.procs[p].prioOrig
           else if p in r.state.ready then s.procs[p].prio + 1
           else s.procs[p].prio)
  {
    var r := PaSchedule(s);
    PaKeepsValid(s);
    assert Distinct(r.state.ready);
    if r.next.Some? {
      forall p | p in s.procs
        ensures r.state.procs[p].prio ==
          (if p == r.next.value then s.procs[p].prioOrig
           else if p in r.state.ready then s.procs[p].prio + 1
           else s.procs[p].prio)
      {
        DistinctCountsOnce(r.state.ready, p);
      }
    }
  }

  lemma FifoNeverRunsFinished(s: State)
    requires s.current.Some? ==> s.current.value in s.procs
    requires InTable(s.procs, s.ready) && LiveReady(s)
    ensures var r := FifoSchedule(s);
      && InTable(r.state.procs, r.state.ready) && LiveReady(r.state)
      && (r.next.Some? ==> r.next.value in s.procs && TicksLeft(s.procs[r.next.value]) > 0)
  {
  }

  lemma SjfNeverRunsFinished(s: State)
    requires s.current.Some? ==> s.current.value in s.procs
    requires InTable(s.procs, s.ready) && LiveReady(s)
    ensures var r := SjfSchedule(s);
      && InTable(r.state.procs, r.state.ready) && LiveReady(r.state)
      && (r.next.Some? ==> r.next.value in s.procs && TicksLeft(s.procs[r.next.value]) > 0)
  {
  }

  /**
   * STCF re-enqueues a preempted current only when a candidate has strictly
   * fewer ticks left; as no process has negative ticks left, the preempted
   * one still has work to do.
   */
  lemma StcfNeverRunsFinished(s: State)
    requires StcfSchedulable(s)
    requires AgesBounded(s) && LiveReady(s)
    ensures var r := StcfSchedule(s);
      && InTable(r.state.procs, r.state.ready) && LiveReady(r.state)
      && (r.next.Some? ==> r.next.value in s.procs && TicksLeft(s.procs[r.next.value]) > 0)
  {
    var r := StcfSchedule(s);
    if s.ready != [] && Runnable(s) {
      var i := ShortestToComplete(s);
      assert 0 <= TicksLeft(s.procs[s.ready[i]]);
    }
  }

  lemma RrNeverRunsFinished(s: State)
    requires s.current.Some? ==> s.current.value in s.procs
    requires InTable(s.procs, s.ready) && LiveReady(s)
    ensures var r := RrSchedule(s);
      && InTable(r.state.procs, r.state.ready) && LiveReady(r.state)
      && (r.next.Some? ==> r.next.value in s.procs && TicksLeft(s.procs[r.next.value]) > 0)
  {
  }

  lemma PrioNeverRunsFinished(s: State)
    requires PrioSchedulable(s) && LiveReady(s)
    ensures var r := PrioSchedule(s);
      && InTable(r.state.procs, r.state.ready) && LiveReady(r.state)
      && (r.next.Some? ==> r.next.value in s.procs && TicksLeft(s.procs[r.next.value]) > 0)
  {
  }
}

=== FILE: processes.dfy ===
/**
 * Data model of the tick-driven scheduling simulator: processes, resources,
 * the ready queue and the `current` slot, plus the generic extremum search
 * `find_process` and the well-formedness invariant every operation keeps.
 */
module Processes {
  import opened Optional
  import opened Queues

  /** Handle of a simulated process (the C code uses `struct process *`). */
  type Pid = nat

  datatype Status = Ready | Running | Blocked

  /** A process record: lifespan and age in ticks, current and original priority. */
  datatype Process = Process(lifespan: int, age: int, status: Status, prio: int, prioOrig: int)

  /** A resource: its owner (NULL when free) and the queue of processes waiting for it. */
  datatype Resource = Resource(owner: Option<Pid>, waitqueue: seq<Pid>)

  /** Everything a scheduler or arbitration protocol reads and writes. */
  datatype State = State(
    procs: map<Pid, Process>,
    ready: seq<Pid>,
    resources: seq<Resource>,
    current: Option<Pid>)

  /** Selection conditions understood by `FindProcess`. */
  const SMALLEST: int := -1
  const LARGEST: int := 1
  const EQUAL: int := 0

  /** Remaining work of a process. */
  function TicksLeft(p: Process): int
  {
    p.lifespan - p.age
  }

  /** Comparator used by SJF. */
  function Lifespan(p: Process): int
  {
    p.lifespan
  }

  /** Comparator used by the priority schedulers and `prio_release`. */
  function Prio(p: Process): int
  {
    p.prio
  }

  /** Every handle in `q` names a process of the table. */
  predicate InTable(procs: map<Pid, Process>, q: seq<Pid>)
  {
    forall i :: 0 <= i < |q| ==> q[i] in procs
  }

  /** Key of the process at position `i` of `q`. */
  function KeyAt(procs: map<Pid, Process>, q: seq<Pid>, key: Process -> int, i: nat): int
    requires InTable(procs, q)
    requires i < |q|
  {
    key(procs[q[i]])
  }

  /**
   * `best` is what `find_process` holds after visiting positions [0, upto):
   * for SMALLEST/LARGEST the first position of the strict extremum so far,
   * for EQUAL the last position whose key equals the head's key.
   */
  ghost predicate Chosen(procs: map<Pid, Process>, q: seq<Pid>, condition: int,
                         key: Process -> int, best: nat, upto: nat)
    requires InTable(procs, q)
    requires best < |q| && upto <= |q|
  {
    if condition < 0 then
      && (forall j :: 0 <= j < upto ==> KeyAt(procs, q, key, best) <= KeyAt(procs, q, key, j))
      && (forall j :: 0 <= j < best ==> KeyAt(procs, q, key, j) > KeyAt(procs, q, key, best))
    else if condition > 0 then
      && (forall j :: 0 <= j < upto ==> KeyAt(procs, q, key, best) >= KeyAt(procs, q, key, j))
      && (forall j :: 0 <= j < best ==> KeyAt(procs, q, key, j) < KeyAt(procs, q, key, best))
    else
      && KeyAt(procs, q, key, best) == KeyAt(procs, q, key, 0)
      && (forall j :: best < j < upto ==> KeyAt(procs, q, key, j) != KeyAt(procs, q, key, 0))
  }

  /** The iteration of `find_process` from position `i` on, holding the candidate `best`. */
  function Scan(procs: map<Pid, Process>, q: seq<Pid>, condition: int,
                key: Process -> int, i: nat, best: nat): (r: nat)
    requires InTable(procs, q)
    requires best < |q| && i <= |q|
    requires best <= i && (i > 0 ==> best < i)
    requires Chosen(procs, q, condition, key, best, i)
    ensures r < |q|
    ensures Chosen(procs, q, condition, key, r, |q|)
    decreases |q| - i
  {
    if i == |q| then best
    else
      var k := KeyAt(procs, q, key, i);
      var b := KeyAt(procs, q, key, best);
      var best' :=
        if condition < 0 then (if k < b then i else best)
        else if condition > 0 then (if k > b then i else best)
        else (if k == b then i else best);
      Scan(procs, q, condition, key, i + 1, best')
  }

  /**
   * Generic extremum search over a queue: the position of the member with the
   * smallest (condition < 0) or largest (condition > 0) key, the first one on
   * ties; for condition 0, the last member whose key equals the head's.
   * None on an empty queue. The queue itself is a value and is not changed.
   */
  function FindProcess(procs: map<Pid, Process>, q: seq<Pid>, condition: int,
                       key: Process -> int): (r: Option<nat>)
    requires InTable(procs, q)
    ensures r.None? <==> |q| == 0
    ensures r.Some? ==> r.value < |q|
    ensures r.Some? && condition < 0 ==>
      (forall j :: 0 <= j < |q| ==> KeyAt(procs, q, key, r.value) <= KeyAt(procs, q, key, j))
      && (forall j :: 0 <= j < r.value ==> KeyAt(procs, q, key, j) > KeyAt(procs, q, key, r.value))
    ensures r.Some? && condition > 0 ==>
      (forall j :: 0 <= j < |q| ==> KeyAt(procs, q, key, r.value) >= KeyAt(procs, q, key, j))
      && (forall j :: 0 <= j < r.value ==> KeyAt(procs, q, key, j) < KeyAt(procs, q, key, r.value))
    ensures r.Some? && condition == 0 ==>
      KeyAt(procs, q, key, r.value) == KeyAt(procs, q, key, 0)
      && (forall j :: r.value < j < |q| ==> KeyAt(procs, q, key, j) != KeyAt(procs, q, key, 0))
  {
    if |q| == 0 then None else Some(Scan(procs, q, condition, key, 0, 0))
  }

  /** The handle `p` sits in the wait queue of some resource. */
  predicate Waiting(s: State, p: Pid)
  {
    exists r :: 0 <= r < |s.resources| && p in s.resources[r].waitqueue
  }

  /** `p` is linked into the ready queue or into some wait queue. */
  predicate Linked(s: State, p: Pid)
  {
    p in s.ready || Waiting(s, p)
  }

  /**
   * Well-formedness of a simulator state:
   * every handle names a process; every process is linked into at most one
   * queue, at most once; waiters are BLOCKED and ready processes are not;
   * a current process that is not BLOCKED is linked nowhere.
   */
  ghost predicate Valid(s: State)
  {
    && InTable(s.procs, s.ready)
    && (forall r :: 0 <= r < |s.resources| ==> InTable(s.procs, s.resources[r].waitqueue))
    && (forall r :: 0 <= r < |s.resources| && s.resources[r].owner.Some? ==>
          s.resources[r].owner.value in s.procs)
    && (s.current.Some? ==> s.current.value in s.procs)
    && Distinct(s.ready)
    && (forall r :: 0 <= r < |s.resources| ==> Distinct(s.resources[r].waitqueue))
    && (forall r, p :: 0 <= r < |s.resources| && p in s.resources[r].waitqueue ==> p !in s.ready)
    && (forall r1, r2, p ::
          0 <= r1 < |s.resources| && 0 <= r2 < |s.resources| && r1 != r2 && p in s.resources[r1].waitqueue
          ==> p !in s.resources[r2].waitqueue)
    && (forall r, p :: 0 <= r < |s.resources| && p in s.resources[r].waitqueue ==>
          s.procs[p].status == Blocked)
    && (forall p :: p in s.ready ==> s.procs[p].status != Blocked)
    && (s.current.Some? && s.procs[s.current.value].status != Blocked ==>
          !Linked(s, s.current.value))
  }

  /** Every process has consumed no more ticks than its lifespan. */
  ghost predicate AgesBounded(s: State)
  {
    forall p :: p in s.procs ==> 0 <= TicksLeft(s.procs[p])
  }
}

=== FILE: queues.dfy ===
/**
 * Queues of process handles. The C code links processes into intrusive
 * doubly-linked lists; here a queue is the sequence of the handles it holds,
 * head first.
 */
module Queues {

  /** No handle occurs twice in `q`. */
  ghost predicate Distinct<T>(q: seq<T>)
  {
    forall i, j :: 0 <= i < |q| && 0 <= j < |q| && i != j ==> q[i] != q[j]
  }

  /** `q` with the element at position `i` unlinked; everything else keeps its order. */
  function RemoveAt<T>(q: seq<T>, i: nat): (r: seq<T>)
    requires i < |q|
    ensures |r| == |q| - 1
    ensures forall j :: 0 <= j < i ==> r[j] == q[j]
    ensures forall j :: i <= j < |r| ==> r[j] == q[j + 1]
  {
    q[..i] + q[i + 1..]
  }

  /** Unlinking keeps exactly the other members: nothing is lost, nothing added. */
  lemma RemoveAtMembers<T>(q: seq<T>, i: nat)
    requires i < |q|
    requires Distinct(q)
    ensures Distinct(RemoveAt(q, i))
    ensures q[i] !in RemoveAt(q, i)
    ensures forall x :: x in RemoveAt(q, i) <==> x in q && x != q[i]
  {
    var r := RemoveAt(q, i);
    forall x | x in q && x != q[i]
      ensures x in r
    {
      var k :| 0 <= k < |q| && q[k] == x;
      if k < i {
        assert r[k] == x;
      } else {
        assert r[k - 1] == x;
      }
    }
  }

  /** Appending a fresh element to the tail keeps a queue duplicate-free. */
  lemma AppendDistinct<T>(q: seq<T>, x: T)
    requires Distinct(q)
    requires x !in q
    ensures Distinct(q + [x])
  {
  }

  /** Pushing a fresh element onto the head keeps a queue duplicate-free. */
  lemma PushDistinct<T>(q: seq<T>, x: T)
    requires Distinct(q)
    requires x !in q
    ensures Distinct([x] + q)
  {
  }
}

=== FILE: shell.dfy ===
/**
 * The token-level core of the shell: the alias table and its built-in,
 * splitting a command line into pipeline stages, alias expansion and the
 * dispatch of a tokenised line to built-ins or execution.
 */
module Shell {
  import opened Optional

  type Token = string

  /** An alias: its name and the tokens it stands for. */
  datatype Alias = Alias(name: string, tokens: seq<Token>)

  /** The alias table in insertion order. */
  type AliasTable = seq<Alias>

  const PIPE: Token := "|"

  /** Names are unique and every alias stands for at least one token (what `alias` can create). */
  ghost predicate WellFormed(t: AliasTable)
  {
    && (forall i, j :: 0 <= i < |t| && 0 <= j < |t| && i != j ==> t[i].name != t[j].name)
    && (forall i :: 0 <= i < |t| ==> |t[i].tokens| >= 1)
  }

  /** Search of `find_alias` from entry `i` on. */
  function FindFrom(t: AliasTable, name: string, i: nat): (r: Option<nat>)
    requires i <= |t|
    ensures r.None? <==> forall k :: i <= k < |t| ==> t[k].name != name
    ensures r.Some? ==> i <= r.value < |t| && t[r.value].name == name
    ensures r.Some? ==> forall k :: i <= k < r.value ==> t[k].name != name
    decreases |t| - i
  {
    if i == |t| then None
    else if t[i].name == name then Some(i)
    else FindFrom(t, name, i + 1)
  }

  /** `find_alias`: the position of the first alias called `name`. */
  function FindAlias(t: AliasTable, name: string): (r: Option<nat>)
    ensures r.None? <==> forall k :: 0 <= k < |t| ==> t[k].name != name
    ensures r.Some? ==> r.value < |t| && t[r.value].name == name
    ensures r.Some? ==> forall k :: 0 <= k < r.value ==> t[k].name != name
  {
    FindFrom(t, name, 0)
  }

  /** What `name` stands for, if it is an alias. */
  function Lookup(t: AliasTable, name: string): Option<seq<Token>>
  {
    match FindAlias(t, name)
    case None => None
    case Some(k) => Some(t[k].tokens)
  }

  /** Result of a built-in: its return code and the table afterwards. */
  datatype Builtin = Builtin(code: int, table: AliasTable)

  /**
   * `builtin_alias_add`: an existing alias called `name` gets the new
   * tokens in place; otherwise a new alias is appended. Always returns 1.
   */
  function AliasAdd(t: AliasTable, name: string, argv: seq<Token>): (r: Builtin)
    ensures r.code == 1
    ensures Lookup(r.table, name) == Some(argv)
    ensures forall n :: n != name ==> Lookup(r.table, n) == Lookup(t, n)
    ensures |r.table| == |t| + (if FindAlias(t, name).None? then 1 else 0)
    ensures FindAlias(t, name).None? ==> r.table[..|t|] == t && r.table[|t|] == Alias(name, argv)
    ensures FindAlias(t, name).Some? ==> r.table == t[FindAlias(t, name).value := Alias(name, argv)]
  {
    match FindAlias(t, name)
    case None =>
      var r := t + [Alias(name, argv)];
      assert r[|t|].name == name && forall j :: 0 <= j < |t| ==> r[j].name != name;
      assert forall n :: n != name ==> FindAlias(r, n) == FindAlias(t, n) by {
        forall n | n != name ensures FindAlias(r, n) == FindAlias(t, n) {
          SameNamesSameFind(t, r, n, |t|);
        }
      }
      Builtin(1, r)
    case Some(k) =>
      var r := t[k := Alias(name, argv)];
      assert r[k].name == name && forall j :: 0 <= j < k ==> r[j].name != name;
      assert forall n :: n != name ==> FindAlias(r, n) == FindAlias(t, n) by {
        forall n | n != name ensures FindAlias(r, n) == FindAlias(t, n) {
          SameNamesSameFind(t, r, n, |t|);
        }
      }
      Builtin(1, r)
  }

  /** Lookups of `n` agree on tables whose first `upto` entries have the same `n`-matches and no later match. */
  lemma SameNamesSameFind(a: AliasTable, b: AliasTable, n: string, upto: nat)
    requires upto <= |a| && upto <= |b|
    requires forall k :: 0 <= k < upto ==> (a[k].name == n <==> b[k].name == n)
    requires forall k :: upto <= k < |a| ==> a[k].name != n
    requires forall k :: upto <= k < |b| ==> b[k].name != n
    requires forall k :: 0 <= k < upto && a[k].name == n ==> a[k] == b[k]
    ensures FindAlias(a, n) == FindAlias(b, n)
  {
    var fa := FindAlias(a, n);
    var fb := FindAlias(b, n);
    if fa.Some? {
      assert b[fa.value].name == n;
    }
    if fb.Some? {
      assert a[fb.value].name == n;
    }
  }

  /** Adding an alias keeps names unique and, for a non-empty expansion, the table well formed. */
  lemma AliasAddKeepsWellFormed(t: AliasTable, name: string, argv: seq<Token>)
    requires WellFormed(t) && |argv| >= 1
    ensures WellFormed(AliasAdd(t, name, argv).table)
  {
    var r := AliasAdd(t, name, argv).table;
    match FindAlias(t, name)
    case None =>
      assert r == t + [Alias(name, argv)];
    case Some(k) =>
      assert r == t[k := Alias(name, argv)];
  }

  /** Result of `builtin_alias_print`: return code and the aliases written to standard error. */
  datatype Listing = Listing(code: int, printed: seq<Alias>)

  /**
   * `builtin_alias_print`: with no name, every alias is listed (code 1) or
   * 0 when there are none; with a name, that alias is listed (code 1) or -1
   * when it is unknown.
   */
  function AliasPrint(t: AliasTable, name: Option<string>): (r: Listing)
    ensures name.None? ==> r.printed == t && (r.code == 0 <==> |t| == 0) && (|t| > 0 ==> r.code == 1)
    ensures name.Some? && Lookup(t, name.value).None? ==> r.code == -1 && r.printed == []
    ensures name.Some? && Lookup(t, name.value).Some? ==>
      r.code == 1 && |r.printed| == 1 && r.printed[0] == Alias(name.value, Lookup(t, name.value).value)
  {
    match name
    case None => if |t| == 0 then Listing(0, []) else Listing(1, t)
    case Some(n) =>
      match FindAlias(t, n)
      case None => Listing(-1, [])
      case Some(k) => Listing(1, [t[k]])
  }

  /**
   * After `alias name argv`, `alias name` lists exactly the new definition,
   * and the full listing is the old one with that definition appended (new
   * name) or put in place of the old one (known name).
   */
  lemma AddThenPrint(t: AliasTable, name: string, argv: seq<Token>)
    ensures AliasPrint(AliasAdd(t, name, argv).table, Some(name)) == Listing(1, [Alias(name, argv)])
    ensures var all := AliasPrint(AliasAdd(t, name, argv).table, None);
      && all.code == 1
      && (Lookup(t, name).None? ==> all.printed == AliasPrint(t, None).printed + [Alias(name, argv)])
      && (Lookup(t, name).Some? ==> |all.printed| == |t| && Alias(name, argv) in all.printed)
  {
    var r := AliasAdd(t, name, argv).table;
    if Lookup(t, name).None? {
      assert r == t + [Alias(name, argv)];
    } else {
      assert r[FindAlias(t, name).value] == Alias(name, argv);
    }
  }

  /** `count_pipelines`: the number of `|` tokens. */
  method CountPipelines(tokens: seq<Token>) returns (cnt: nat)
    ensures cnt == multiset(tokens)[PIPE]
  {
    cnt := 0;
    var i := 0;
    while i < |tokens|
      invariant 0 <= i <= |tokens|
      invariant cnt == multiset(tokens[..i])[PIPE]
    {
      assert tokens[..i + 1] == tokens[..i] + [tokens[i]];
      if tokens[i] == PIPE {
        cnt := cnt + 1;
      }
      i := i + 1;
    }
    assert tokens[..i] == tokens;
  }

  /** Pipeline stages put back together with `|` between them. */
  function Join(cmds: seq<seq<Token>>): seq<Token>
    requires |cmds| >= 1
    decreases |cmds|
  {
    if |cmds| == 1 then cmds[0]
    else Join(cmds[..|cmds| - 1]) + [PIPE] + cmds[|cmds| - 1]
  }

  /** No stage holds a `|` token. */
  ghost predicate PipeFree(cmds: seq<seq<Token>>)
  {
    forall c :: c in cmds ==> PIPE !in c
  }

  /** A line a pipeline can be made of: it neither starts nor ends with `|`. */
  predicate Separable(tokens: seq<Token>)
  {
    |tokens| > 0 && tokens[0] != PIPE && tokens[|tokens| - 1] != PIPE
  }

  /** Joining one more stage appends a `|` and the stage. */
  lemma JoinSnoc(cmds: seq<seq<Token>>, stage: seq<Token>)
    requires |cmds| > 0
    ensures Join(cmds + [stage]) == Join(cmds) + [PIPE] + stage
  {
    var c := cmds + [stage];
    assert c[..|c| - 1] == cmds;
  }

  /** A line up to `i` is its prefix up to `k`, the token at `k`, and the rest. */
  lemma SplitAround(tokens: seq<Token>, k: nat, i: nat)
    requires k < i <= |tokens|
    ensures tokens[..i] == tokens[..k] + [tokens[k]] + tokens[k + 1..i]
  {
    assert tokens[..i] == tokens[..k] + tokens[k..i];
    assert tokens[k..i] == [tokens[k]] + tokens[k + 1..i];
  }

  /** Appending a stage to a joined prefix that ends just before a `|`. */
  lemma JoinStep(tokens: seq<Token>, cmds: seq<seq<Token>>, idx2: nat, i: nat)
    requires |cmds| > 0 && idx2 < i <= |tokens| && tokens[idx2] == PIPE
    requires Join(cmds) == tokens[..idx2]
    ensures Join(cmds + [tokens[idx2 + 1..i]]) == tokens[..i]
  {
    JoinSnoc(cmds, tokens[idx2 + 1..i]);
    SplitAround(tokens, idx2, i);
  }

  /**
   * The state of the `parse_commands` loop on a separable line after `i`
   * tokens: the stages built so far join to the line up to the last `|`
   * seen (`idx2`), and no `|` follows it before `i`.
   */
  ghost predicate Scanned(tokens: seq<Token>, cmds: seq<seq<Token>>, idx2: nat, i: nat)
  {
    && i <= |tokens|
    && PipeFree(cmds)
    && (i < |tokens| && |cmds| == 0 ==> idx2 == 0 && PIPE !in tokens[..i])
    && (i < |tokens| && |cmds| > 0 ==>
          && 0 < idx2 < i && tokens[idx2] == PIPE
          && PIPE !in tokens[idx2 + 1..i]
          && Join(cmds) == tokens[..idx2])
    && (i == |tokens| ==> |cmds| > 0 && Join(cmds) == tokens)
  }

  /** The indices one iteration of the `parse_commands` loop sets at a cut. */
  function Cut(n: nat, idx2: nat, i: nat): (r: (nat, nat))
    ensures i < n ==> r.0 <= idx2 + 1 && r.1 <= n
  {
    (if idx2 == 0 then 0 else idx2 + 1, if i != n - 1 then i else n)
  }

  /** One iteration of the `parse_commands` loop keeps `Scanned`. */
  lemma ParseStep(tokens: seq<Token>, cmds: seq<seq<Token>>, idx2: nat, i: nat)
    requires Separable(tokens) && i < |tokens|
    requires Scanned(tokens, cmds, idx2, i)
    ensures tokens[i] == PIPE || i == |tokens| - 1 ==>
      var (lo, hi) := Cut(|tokens|, idx2, i);
      lo <= hi <= |tokens| && Scanned(tokens, cmds + [tokens[lo..hi]], hi, i + 1)
    ensures tokens[i] != PIPE && i != |tokens| - 1 ==> Scanned(tokens, cmds, idx2, i + 1)
  {
    var n := |tokens|;
    var (lo, hi) := Cut(n, idx2, i);
    if tokens[i] == PIPE || i == n - 1 {
      var c := cmds + [tokens[lo..hi]];
      if |cmds| == 0 {
        assert tokens[lo..hi] == tokens[..hi];
        if hi == n {
          assert tokens[..hi] == tokens[..i] + [tokens[i]];
        }
      } else {
        JoinStep(tokens, cmds, idx2, hi);
        if hi == n {
          assert tokens[lo..hi] == tokens[lo..i] + [tokens[i]];
        }
      }
      assert PipeFree(c);
    } else if |cmds| > 0 {
      assert tokens[idx2 + 1..i + 1] == tokens[idx2 + 1..i] + [tokens[i]];
    } else {
      assert tokens[..i + 1] == tokens[..i] + [tokens[i]];
    }
  }

  /** Extending a prefix by one token counts one more `|` exactly when the token is one. */
  lemma PipeCountStep(tokens: seq<Token>, i: nat)
    requires i < |tokens|
    ensures multiset(tokens[..i + 1])[PIPE] == multiset(tokens[..i])[PIPE] + (if tokens[i] == PIPE then 1 else 0)
  {
    assert tokens[..i + 1] == tokens[..i] + [tokens[i]];
  }

  /**
   * `parse_commands`: cuts the line at each `|` and at its end, following
   * the two indices of the C loop. The caller never passes an empty line.
   * A stage is built per `|` token plus one for a last token that is not
   * `|`; the C code sizes the stage list for one more stage than there are
   * `|` tokens, so a line ending in `|` leaves the last slot unset. For a
   * separable line the stages are exactly the `|`-free pieces between the
   * `|` tokens.
   */
  method ParseCommands(tokens: seq<Token>) returns (cmds: seq<seq<Token>>)
    requires |tokens| > 0
    ensures |cmds| == multiset(tokens)[PIPE] + (if tokens[|tokens| - 1] == PIPE then 0 else 1)
    ensures Separable(tokens) ==> |cmds| >= 1 && Join(cmds) == tokens && PipeFree(cmds)
  {
    var n := |tokens|;
    cmds := [];
    var idx1 := 0;
    var idx2 := 0;
    var i := 0;
    while i < n
      invariant 0 <= i <= n && idx2 <= n
      invariant i < n ==> idx2 < i || idx2 == 0
      invariant |cmds| == multiset(tokens[..i])[PIPE] + (if i == n && tokens[n - 1] != PIPE then 1 else 0)
      invariant Separable(tokens) ==> Scanned(tokens, cmds, idx2, i)
    {
      PipeCountStep(tokens, i);
      if Separable(tokens) {
        ParseStep(tokens, cmds, idx2, i);
      }
      if tokens[i] == PIPE || i == n - 1 {
        idx1, idx2 := Cut(n, idx2, i).0, Cut(n, idx2, i).1;
        cmds := cmds + [tokens[idx1..idx2]];
      }
      i := i + 1;
    }
    assert tokens[..n] == tokens;
  }
  /** Length of the `|`-free suffix of a line. */
  function TailLen(line: seq<Token>): (r: nat)
    ensures r <= |line|
    decreases |line|
  {
    if |line| == 0 || line[|line| - 1] == PIPE then 0 else 1 + TailLen(line[..|line| - 1])
  }

  /** Behind the last `|` of a line lies exactly its `|`-free suffix. */
  lemma {:induction false} TailLenAfterPipe(y: seq<Token>, x: seq<Token>)
    requires PIPE !in x
    ensures TailLen(y + [PIPE] + x) == |x|
    decreases |x|
  {
    var line := y + [PIPE] + x;
    if |x| > 0 {
      assert line[..|line| - 1] == y + [PIPE] + x[..|x| - 1];
      assert x[|x| - 1] in x;
      TailLenAfterPipe(y, x[..|x| - 1]);
    } else {
      assert line[|line| - 1] == PIPE;
    }
  }

  /** A join of `|`-free stages holds a `|` exactly when there are several stages. */
  lemma PipeInJoin(cmds: seq<seq<Token>>)
    requires |cmds| >= 1 && PipeFree(cmds)
    ensures PIPE in Join(cmds) <==> |cmds| > 1
  {
    if |cmds| == 1 {
      assert cmds[0] in cmds;
    } else {
      var j := Join(cmds[..|cmds| - 1]);
      assert Join(cmds)[|j|] == PIPE;
    }
  }

  /**
   * A line has one decomposition into `|`-free stages: whatever splits a
   * separable line and joins back to it yields the stages `parse_commands`
   * builds.
   */
  lemma {:induction false} JoinIsUnique(a: seq<seq<Token>>, b: seq<seq<Token>>)
    requires |a| >= 1 && |b| >= 1 && PipeFree(a) && PipeFree(b)
    requires Join(a) == Join(b)
    ensures a == b
    decreases |a|
  {
    PipeInJoin(a);
    PipeInJoin(b);
    if |a| == 1 || |b| == 1 {
      assert |a| == |b| == 1;
    } else {
      var a', la := a[..|a| - 1], a[|a| - 1];
      var b', lb := b[..|b| - 1], b[|b| - 1];
      assert la in a && lb in b;
      var line := Join(a);
      TailLenAfterPipe(Join(a'), la);
      TailLenAfterPipe(Join(b'), lb);
      assert la == line[|line| - |la|..] == lb;
      assert Join(a') == line[..|line| - |la| - 1] == Join(b');
      assert PipeFree(a') && PipeFree(b');
      JoinIsUnique(a', b');
      assert a == a' + [la] && b == b' + [lb];
    }
  }

  /** What one token stands for: an alias's tokens, or the token itself. */
  function Replace(t: AliasTable, tok: Token): seq<Token>
  {
    match Lookup(t, tok)
    case None => [tok]
    case Some(x) => x
  }

  /** Alias expansion of a line: every token replaced once, inserted tokens are not expanded again. */
  function Expand(t: AliasTable, tokens: seq<Token>): seq<Token>
    decreases |tokens|
  {
    if |tokens| == 0 then [] else Replace(t, tokens[0]) + Expand(t, tokens[1..])
  }

  /** Expansion works token by token. */
  lemma {:induction false} ExpandAppend(t: AliasTable, a: seq<Token>, b: seq<Token>)
    ensures Expand(t, a + b) == Expand(t, a) + Expand(t, b)
    decreases |a|
  {
    if |a| == 0 {
      assert a + b == b;
    } else {
      assert (a + b)[1..] == a[1..] + b;
      ExpandAppend(t, a[1..], b);
    }
  }

  /** A line with no alias name among its tokens is left as it is. */
  lemma {:induction false} ExpandWithoutAliases(t: AliasTable, tokens: seq<Token>)
    requires forall i :: 0 <= i < |tokens| ==> Lookup(t, tokens[i]).None?
    ensures Expand(t, tokens) == tokens
    decreases |tokens|
  {
    if |tokens| > 0 {
      ExpandWithoutAliases(t, tokens[1..]);
    }
  }

  /**
   * One alias on a line that otherwise names none: its tokens take its
   * place, once, so the line grows by the alias's token count minus one.
   */
  lemma ExpandOneAlias(t: AliasTable, pre: seq<Token>, name: string, post: seq<Token>)
    requires forall i :: 0 <= i < |pre| ==> Lookup(t, pre[i]).None?
    requires forall i :: 0 <= i < |post| ==> Lookup(t, post[i]).None?
    requires Lookup(t, name).Some?
    ensures Expand(t, pre + [name] + post) == pre + Lookup(t, name).value + post
    ensures |Expand(t, pre + [name] + post)| == |pre + [name] + post| + |Lookup(t, name).value| - 1
  {
    var x := Lookup(t, name).value;
    var head := pre + [name];
    ExpandAppend(t, head, post);
    ExpandAppend(t, pre, [name]);
    ExpandWithoutAliases(t, pre);
    ExpandWithoutAliases(t, post);
    assert Expand(t, [name]) == x by {
      assert [name][1..] == [];
      assert Expand(t, [name]) == Replace(t, name) + Expand(t, []);
    }
    assert Expand(t, head) == pre + x;
    assert Expand(t, head + post) == pre + x + post;
  }

  /** Expanding one more token of a line appends its replacement. */
  lemma ExpandStep(t: AliasTable, tokens: seq<Token>, j: nat)
    requires j < |tokens|
    ensures Expand(t, tokens[..j + 1]) == Expand(t, tokens[..j]) + Replace(t, tokens[j])
  {
    assert tokens[..j + 1] == tokens[..j] + [tokens[j]];
    ExpandAppend(t, tokens[..j], [tokens[j]]);
    assert Expand(t, [tokens[j]]) == Replace(t, tokens[j]) + Expand(t, []);
  }

  /** Replacing the token at the scan position of a partly expanded line expands one more token. */
  lemma ReplaceInPlace(t: AliasTable, tokens: seq<Token>, j: nat, r: seq<Token>, i: nat)
    requires j < |tokens|
    requires r == Expand(t, tokens[..j]) + tokens[j..] && i == |Expand(t, tokens[..j])|
    ensures i < |r| && r[i] == tokens[j]
    ensures r[..i] + Replace(t, r[i]) + r[i + 1..] == Expand(t, tokens[..j + 1]) + tokens[j + 1..]
    ensures |Expand(t, tokens[..j + 1])| == i + |Replace(t, r[i])|
  {
    ExpandStep(t, tokens, j);
    assert r[..i] == Expand(t, tokens[..j]) && r[i + 1..] == tokens[j + 1..];
  }

  /**
   * The alias-replacement loop of `run_command`: each token that names an
   * alias is replaced in place by the alias's tokens and the scan resumes
   * after them. Aliases stand for at least one token, as `alias` creates
   * them.
   */
  method ExpandAliases(t: AliasTable, tokens: seq<Token>) returns (r: seq<Token>)
    requires forall k :: 0 <= k < |t| ==> |t[k].tokens| >= 1
    ensures r == Expand(t, tokens)
  {
    r := tokens;
    var i := 0;
    ghost var j := 0;
    ghost var done: seq<Token> := [];
    while i < |r|
      invariant 0 <= j <= |tokens| && done == Expand(t, tokens[..j])
      invariant r == done + tokens[j..] && i == |done|
      decreases |r| - i
    {
      ReplaceInPlace(t, tokens, j, r, i);
      ghost var next := r[..i] + Replace(t, r[i]) + r[i + 1..];
      match FindAlias(t, r[i]) {
        case None =>
          assert r == next;
          i := i + 1;
        case Some(k) =>
          var x := t[k].tokens;
          r := r[..i] + x + r[i + 1..];
          i := i + |x|;
      }
      assert r == next;
      j := j + 1;
      done := Expand(t, tokens[..j]);
    }
    assert tokens[..j] == tokens;
  }

  /** What a command line leads to. */
  datatype Outcome =
    | Finished(code: int, table: AliasTable, printed: seq<Alias>)
    | ChangeDir(dir: string)
    | Execute(argv: seq<Token>)

  /**
   * `run_command`: an empty line returns 1, `exit` returns 0, `cd` with at
   * most one argument changes directory (home for none) and fails with -1
   * otherwise, `alias` lists one or all aliases or defines one; any other
   * line is expanded and executed.
   */
  function RunCommand(t: AliasTable, tokens: seq<Token>): (r: Outcome)
    ensures |tokens| == 0 ==> r == Finished(1, t, [])
    ensures |tokens| > 0 && tokens[0] == "exit" ==> r == Finished(0, t, [])
    ensures |tokens| > 0 && tokens[0] == "cd" ==>
      && (|tokens| == 1 ==> r == ChangeDir("~"))
      && (|tokens| == 2 ==> r == ChangeDir(tokens[1]))
      && (|tokens| > 2 ==> r == Finished(-1, t, []))
    ensures |tokens| == 1 && tokens[0] == "alias" ==>
      r == Finished(if |t| == 0 then 0 else 1, t, t)
    ensures |tokens| == 2 && tokens[0] == "alias" ==>
      && (Lookup(t, tokens[1]).None? ==> r == Finished(-1, t, []))
      && (Lookup(t, tokens[1]).Some? ==> r == Finished(1, t, [Alias(tokens[1], Lookup(t, tokens[1]).value)]))
    ensures |tokens| > 2 && tokens[0] == "alias" ==>
      && r.Finished? && r.code == 1 && r.printed == []
      && Lookup(r.table, tokens[1]) == Some(tokens[2..])
      && (forall n :: n != tokens[1] ==> Lookup(r.table, n) == Lookup(t, n))
      && (FindAlias(t, tokens[1]).None? ==> r.table == t + [Alias(tokens[1], tokens[2..])])
      && (FindAlias(t, tokens[1]).Some? ==>
            r.table == t[FindAlias(t, tokens[1]).value := Alias(tokens[1], tokens[2..])])
    ensures |tokens| > 0 && tokens[0] !in {"exit", "cd", "alias"} ==> r == Execute(Expand(t, tokens))
  {
    if |tokens| == 0 then Finished(1, t, [])
    else if tokens[0] == "exit" then Finished(0, t, [])
    else if tokens[0] == "cd" then
      if |tokens| == 1 then ChangeDir("~")
      else if |tokens| == 2 then ChangeDir(tokens[1])
      else Finished(-1, t, [])
    else if tokens[0] == "alias" then
      if |tokens| == 1 then
        var l := AliasPrint(t, None);
        Finished(l.code, t, l.printed)
      else if |tokens| == 2 then
        var l := AliasPrint(t, Some(tokens[1]));
        Finished(l.code, t, l.printed)
      else
        var b := AliasAdd(t, tokens[1], tokens[2..]);
        Finished(b.code, b.table, [])
    else Execute(Expand(t, tokens))
  }

  /**
   * Defining an alias and then running a line that starts with it executes
   * the alias's tokens literally, followed by the expansion of the rest.
   */
  lemma DefinedAliasExpands(t: AliasTable, name: string, argv: seq<Token>, rest: seq<Token>)
    requires |argv| >= 1 && name !in {"exit", "cd", "alias"}
    ensures var def := RunCommand(t, ["alias", name] + argv);
      && def.Finished? && def.code == 1
      && RunCommand(def.table, [name] + rest) == Execute(argv + Expand(def.table, rest))
  {
    var line := ["alias", name] + argv;
    assert line[1] == name && line[2..] == argv;
    var t' := RunCommand(t, line).table;
    var run := [name] + rest;
    assert run[1..] == rest;
  }
}

=== FILE: switch.dfy ===
/**
 * Switching the running process of the paging simulator, and forking it
 * with copy-on-write sharing when the requested pid does not exist.
 */
module Switch {
  import opened Optional
  import opened Queues
  import opened Tlb
  import opened Paging

  /** A process: its pid and its own page table. */
  datatype VmProcess = VmProcess(pid: nat, pagetable: PageTable)

  /**
   * The system: TLB, frame map counts, the running process and the list of
   * the others. `ptbr` always designates `current.pagetable`.
   */
  datatype System = System(tlb: seq<TlbEntry>, mapcounts: seq<nat>, current: VmProcess, processes: seq<VmProcess>)

  /** Search of `find_process` from position `i` on: the first process with `pid`. */
  function FindFrom(ps: seq<VmProcess>, pid: nat, i: nat): (r: Option<nat>)
    requires i <= |ps|
    ensures r.None? <==> forall k :: i <= k < |ps| ==> ps[k].pid != pid
    ensures r.Some? ==> i <= r.value < |ps| && ps[r.value].pid == pid
    ensures r.Some? ==> forall k :: i <= k < r.value ==> ps[k].pid != pid
    decreases |ps| - i
  {
    if i == |ps| then None
    else if ps[i].pid == pid then Some(i)
    else FindFrom(ps, pid, i + 1)
  }

  /** `find_process`: the position of the first process with `pid`, None when absent. */
  function FindProcess(ps: seq<VmProcess>, pid: nat): (r: Option<nat>)
    ensures r.None? <==> forall k :: 0 <= k < |ps| ==> ps[k].pid != pid
    ensures r.Some? ==> r.value < |ps| && ps[r.value].pid == pid
    ensures r.Some? ==> forall k :: 0 <= k < r.value ==> ps[k].pid != pid
  {
    FindFrom(ps, pid, 0)
  }

  /** Valid mappings of a second-level page point at existing frames. */
  predicate DirInRange(d: Directory, frames: nat)
  {
    forall j :: 0 <= j < |d| && d[j].valid ==> d[j].pfn < frames
  }

  /** Valid mappings of a page table point at existing frames. */
  predicate FramesInRange(pt: PageTable, frames: nat)
  {
    forall i :: 0 <= i < |pt| && pt[i].Some? ==> DirInRange(pt[i].value, frames)
  }

  /** Number of valid entries of a second-level page that map frame `f`. */
  function RefsDir(d: Directory, f: nat): nat
  {
    if |d| == 0 then 0
    else (if d[0].valid && d[0].pfn == f then 1 else 0) + RefsDir(d[1..], f)
  }

  /** Number of valid entries of a page table that map frame `f`. */
  function Refs(pt: PageTable, f: nat): nat
  {
    if |pt| == 0 then 0
    else (if pt[0].Some? then RefsDir(pt[0].value, f) else 0) + Refs(pt[1..], f)
  }

  /** The inner loop of the fork: one more mapping for each valid entry's frame. */
  function BumpDir(mapcounts: seq<nat>, d: Directory): (r: seq<nat>)
    requires DirInRange(d, |mapcounts|)
    ensures |r| == |mapcounts|
    ensures forall f :: 0 <= f < |r| ==> r[f] == mapcounts[f] + RefsDir(d, f)
    decreases |d|
  {
    if |d| == 0 then mapcounts
    else
      var mc := if d[0].valid then mapcounts[d[0].pfn := mapcounts[d[0].pfn] + 1] else mapcounts;
      BumpDir(mc, d[1..])
  }

  /** The outer loop of the fork over the second-level pages present. */
  function BumpTable(mapcounts: seq<nat>, pt: PageTable): (r: seq<nat>)
    requires FramesInRange(pt, |mapcounts|)
    ensures |r| == |mapcounts|
    ensures forall f :: 0 <= f < |r| ==> r[f] == mapcounts[f] + Refs(pt, f)
    decreases |pt|
  {
    if |pt| == 0 then mapcounts
    else
      var mc := if pt[0].Some? then BumpDir(mapcounts, pt[0].value) else mapcounts;
      assert FramesInRange(pt[1..], |mc|) by {
        forall i | 0 <= i < |pt[1..]| && pt[1..][i].Some? ensures DirInRange(pt[1..][i].value, |mc|) {
          assert pt[1..][i] == pt[i + 1];
        }
      }
      BumpTable(mc, pt[1..])
  }

  /** The fork's rewrite of a second-level page: every valid entry becomes read-only. */
  function ShareDir(d: Directory): (r: Directory)
    ensures |r| == |d|
    ensures forall j :: 0 <= j < |d| && d[j].valid ==> r[j] == d[j].(rw := ACCESS_READ)
    ensures forall j :: 0 <= j < |d| && !d[j].valid ==> r[j] == d[j]
  {
    seq(|d|, j requires 0 <= j < |d| => if d[j].valid then d[j].(rw := ACCESS_READ) else d[j])
  }

  /** The fork's rewrite of a page table; absent second-level pages stay absent. */
  function ShareTable(pt: PageTable): (r: PageTable)
    ensures |r| == |pt|
    ensures forall i :: 0 <= i < |pt| ==> (r[i].None? <==> pt[i].None?)
    ensures forall i :: 0 <= i < |pt| && pt[i].Some? ==> r[i].value == ShareDir(pt[i].value)
  {
    seq(|pt|, i requires 0 <= i < |pt| => if pt[i].None? then None else Some(ShareDir(pt[i].value)))
  }

  /**
   * `switch_process`. The running process is appended to the list. If a
   * process with `pid` is listed, the first such is unlinked and runs;
   * otherwise the running process is forked: its valid entries become
   * read-only, each mapped frame gains one mapping per valid entry, and the
   * child with `pid` gets a page table with identical entry values. The TLB
   * is flushed in both cases.
   */
  function SwitchProcess(s: System, pid: nat): (r: System)
    requires FindProcess(s.processes, pid).None? ==> FramesInRange(s.current.pagetable, |s.mapcounts|)
    ensures r.current.pid == pid
    ensures |r.tlb| == |s.tlb| && forall i :: 0 <= i < |r.tlb| ==> !r.tlb[i].valid
    ensures forall i :: 0 <= i < |r.tlb| ==> r.tlb[i].(valid := s.tlb[i].valid) == s.tlb[i]
    ensures match FindProcess(s.processes, pid)
      case Some(k) =>
        && r.current == s.processes[k]
        && r.processes == RemoveAt(s.processes, k) + [s.current]
        && r.mapcounts == s.mapcounts
      case None =>
        var parent := s.current.pagetable;
        && r.processes == s.processes + [s.current.(pagetable := r.current.pagetable)]
        && |r.current.pagetable| == |parent|
        && (forall i :: 0 <= i < |parent| ==> (r.current.pagetable[i].None? <==> parent[i].None?))
        && (forall i :: 0 <= i < |parent| && parent[i].Some? ==> |r.current.pagetable[i].value| == |parent[i].value|)
        && (forall i, j :: 0 <= i < |parent| && parent[i].Some? && 0 <= j < |parent[i].value| ==>
              r.current.pagetable[i].value[j] ==
                if parent[i].value[j].valid then parent[i].value[j].(rw := ACCESS_READ) else parent[i].value[j])
        && |r.mapcounts| == |s.mapcounts|
        && (forall f :: 0 <= f < |s.mapcounts| ==> r.mapcounts[f] == s.mapcounts[f] + Refs(parent, f))
  {
    var tlb := FlushTlb(s.tlb);
    match FindProcess(s.processes, pid)
    case Some(k) =>
      System(tlb, s.mapcounts, s.processes[k], RemoveAt(s.processes, k) + [s.current])
    case None =>
      var shared := ShareTable(s.current.pagetable);
      var mc := BumpTable(s.mapcounts, s.current.pagetable);
      System(tlb, mc, VmProcess(pid, shared), s.processes + [s.current.(pagetable := shared)])
  }

  /** A valid entry counts towards its own frame. */
  lemma {:induction false} RefsDirCounts(d: Directory, j: nat)
    requires j < |d| && d[j].valid
    ensures RefsDir(d, d[j].pfn) >= 1
    decreases j
  {
    if j > 0 {
      RefsDirCounts(d[1..], j - 1);
    }
  }

  /** A valid entry of a page table counts towards its own frame. */
  lemma {:induction false} RefsCounts(pt: PageTable, i: nat, j: nat)
    requires i < |pt| && pt[i].Some? && j < |pt[i].value| && pt[i].value[j].valid
    ensures Refs(pt, pt[i].value[j].pfn) >= 1
    decreases i
  {
    if i == 0 {
      RefsDirCounts(pt[0].value, j);
    } else {
      RefsCounts(pt[1..], i - 1, j);
    }
  }

  /**
   * After a fork, a mapped page whose original access allowed writes is
   * shared by parent and child: its frame has at least two mappings and a
   * write through either table takes the copy-on-write path.
   */
  lemma ForkSharesWritablePages(s: System, pid: nat, i: nat, j: nat)
    requires FramesInRange(s.current.pagetable, |s.mapcounts|)
    requires FindProcess(s.processes, pid).None?
    requires i < |s.current.pagetable| && s.current.pagetable[i].Some?
    requires j < |s.current.pagetable[i].value|
    requires var pte := s.current.pagetable[i].value[j];
      pte.valid && pte.private == ACCESS_READ + ACCESS_WRITE && s.mapcounts[pte.pfn] >= 1
    ensures var r := SwitchProcess(s, pid);
      var child := r.current.pagetable[i].value[j];
      var parent := r.processes[|r.processes| - 1].pagetable[i].value[j];
      && child == parent
      && CowTriggered(child, ACCESS_WRITE)
      && r.mapcounts[child.pfn] >= 2
  {
    RefsCounts(s.current.pagetable, i, j);
  }

  /** The pids of the running process and of the listed ones. */
  function AllPids(s: System): (r: seq<nat>)
    ensures |r| == |s.processes| + 1
    ensures r[|s.processes|] == s.current.pid
    ensures forall k :: 0 <= k < |s.processes| ==> r[k] == s.processes[k].pid
  {
    seq(|s.processes|, k requires 0 <= k < |s.processes| => s.processes[k].pid) + [s.current.pid]
  }

  /** `a` with `a[k]` moved behind its last element. */
  function Rotated(a: seq<nat>, k: nat): (b: seq<nat>)
    requires k + 1 < |a|
    ensures |b| == |a|
    ensures forall x :: 0 <= x < k ==> b[x] == a[x]
    ensures forall x :: k <= x < |a| - 2 ==> b[x] == a[x + 1]
    ensures b[|a| - 2] == a[|a| - 1] && b[|a| - 1] == a[k]
  {
    a[..k] + a[k + 1..|a| - 1] + [a[|a| - 1]] + [a[k]]
  }

  /** Moving `a[k]` to the end keeps the elements and their distinctness. */
  lemma RotateKeepsElements(a: seq<nat>, k: nat)
    requires k + 1 < |a|
    ensures multiset(Rotated(a, k)) == multiset(a)
    ensures Distinct(a) ==> Distinct(Rotated(a, k))
  {
    var n := |a| - 1;
    var b := Rotated(a, k);
    assert b == a[..k] + a[k + 1..n] + [a[n]] + [a[k]];
    assert a == a[..k] + [a[k]] + a[k + 1..n] + [a[n]];
    if Distinct(a) {
      forall x, y | 0 <= x < |b| && 0 <= y < |b| && x != y ensures b[x] != b[y] {
        var ox := if x < k then x else if x < n - 1 then x + 1 else if x == n - 1 then n else k;
        var oy := if y < k then y else if y < n - 1 then y + 1 else if y == n - 1 then n else k;
        assert b[x] == a[ox] && b[y] == a[oy];
      }
    }
  }

  /** Switching to a listed pid keeps the set of processes, and distinct pids stay distinct. */
  lemma ResumeKeepsPids(s: System, pid: nat)
    requires FindProcess(s.processes, pid).Some?
    ensures var r := SwitchProcess(s, pid);
      && multiset(AllPids(r)) == multiset(AllPids(s))
      && (Distinct(AllPids(s)) ==> Distinct(AllPids(r)))
  {
    var r := SwitchProcess(s, pid);
    var a := AllPids(s);
    var k := FindProcess(s.processes, pid).value;
    var n := |s.processes|;
    RotateKeepsElements(a, k);
    assert AllPids(r) == Rotated(a, k);
  }

  /**
   * Forking adds exactly the new pid. Distinct pids stay distinct unless
   * the requested pid is the running one, which is not listed and so is
   * forked again.
   */
  lemma ForkAddsPid(s: System, pid: nat)
    requires FramesInRange(s.current.pagetable, |s.mapcounts|)
    requires FindProcess(s.processes, pid).None?
    ensures var r := SwitchProcess(s, pid);
      && multiset(AllPids(r)) == multiset(AllPids(s)) + multiset{pid}
      && (Distinct(AllPids(s)) && pid != s.current.pid ==> Distinct(AllPids(r)))
  {
    var r := SwitchProcess(s, pid);
    var a := AllPids(s);
    assert AllPids(r) == a + [pid];
    if Distinct(a) && pid != s.current.pid {
      assert forall x :: 0 <= x < |a| ==> a[x] != pid;
    }
  }
}

=== FILE: tlb.dfy ===
/**
 * The software-managed TLB of the paging simulator: a fixed array of
 * entries, each caching one vpn -> pfn translation with its access bits.
 */
module Tlb {
  import opened Optional

  /** Access bits are an unsigned int; reads and writes are single bits. */
  type Access = bv32

  const ACCESS_READ: Access := 1
  const ACCESS_WRITE: Access := 2

  datatype TlbEntry = TlbEntry(valid: bool, vpn: nat, rw: Access, pfn: nat)

  /** Entry `i` is a valid translation of `vpn`. */
  predicate Hit(tlb: seq<TlbEntry>, i: nat, vpn: nat)
    requires i < |tlb|
  {
    tlb[i].valid && tlb[i].vpn == vpn
  }

  /** No two valid entries translate the same vpn. */
  ghost predicate Unique(tlb: seq<TlbEntry>)
  {
    forall i, j ::
      0 <= i < |tlb| && 0 <= j < |tlb| && tlb[i].valid && tlb[j].valid && tlb[i].vpn == tlb[j].vpn
      ==> i == j
  }

  /** The search of `find_tlbe` from position `i` on. */
  function FindFrom(tlb: seq<TlbEntry>, vpn: nat, i: nat): (r: Option<nat>)
    requires i <= |tlb|
    ensures r.Some? ==>
      (i <= r.value < |tlb| && Hit(tlb, r.value, vpn) && forall j :: i <= j < r.value ==> !Hit(tlb, j, vpn))
    ensures r.None? ==> forall j :: i <= j < |tlb| ==> !Hit(tlb, j, vpn)
    decreases |tlb| - i
  {
    if i == |tlb| then None
    else if tlb[i].valid && tlb[i].vpn == vpn then Some(i)
    else FindFrom(tlb, vpn, i + 1)
  }

  /** `find_tlbe`: the first valid entry for `vpn`, or None. */
  function FindTlbe(tlb: seq<TlbEntry>, vpn: nat): (r: Option<nat>)
    ensures r.Some? ==>
      (r.value < |tlb| && Hit(tlb, r.value, vpn) && forall j :: 0 <= j < r.value ==> !Hit(tlb, j, vpn))
    ensures r.None? <==> forall j :: 0 <= j < |tlb| ==> !Hit(tlb, j, vpn)
  {
    FindFrom(tlb, vpn, 0)
  }

  /** `flush_tlb`: every entry becomes invalid; the other fields are left as they were. */
  function FlushTlb(tlb: seq<TlbEntry>): (r: seq<TlbEntry>)
    ensures |r| == |tlb|
    ensures forall i :: 0 <= i < |r| ==> !r[i].valid
    ensures forall i :: 0 <= i < |r| ==> r[i].(valid := tlb[i].valid) == tlb[i]
  {
    seq(|tlb|, i requires 0 <= i < |tlb| => tlb[i].(valid := false))
  }

  /** The access bits `have` include every bit of `want`. */
  predicate Grants(have: Access, want: Access)
  {
    have & want == want
  }

  /**
   * `lookup_tlb`: Some(pfn) exactly when the first valid entry for `vpn`
   * grants every requested access bit; None otherwise (`*pfn` untouched).
   */
  function LookupTlb(tlb: seq<TlbEntry>, vpn: nat, rw: Access): (r: Option<nat>)
    ensures r.Some? ==> exists i :: 0 <= i < |tlb| && Hit(tlb, i, vpn) && Grants(tlb[i].rw, rw) && tlb[i].pfn == r.value
    ensures Unique(tlb) ==>
      (r.Some? <==> exists i :: 0 <= i < |tlb| && Hit(tlb, i, vpn) && Grants(tlb[i].rw, rw))
  {
    var k := FindTlbe(tlb, vpn);
    LookupByFirstHit(tlb, vpn, rw);
    if k.None? then None
    else if Grants(tlb[k.value].rw, rw) then Some(tlb[k.value].pfn)
    else None
  }

  /** With unique entries, the first hit for `vpn` is the only one. */
  lemma LookupByFirstHit(tlb: seq<TlbEntry>, vpn: nat, rw: Access)
    ensures Unique(tlb) ==>
      ((exists i :: 0 <= i < |tlb| && Hit(tlb, i, vpn) && Grants(tlb[i].rw, rw)) <==>
       (FindTlbe(tlb, vpn).Some? && Grants(tlb[FindTlbe(tlb, vpn).value].rw, rw)))
  {
    if Unique(tlb) && exists i :: 0 <= i < |tlb| && Hit(tlb, i, vpn) && Grants(tlb[i].rw, rw) {
      var i :| 0 <= i < |tlb| && Hit(tlb, i, vpn) && Grants(tlb[i].rw, rw);
      assert FindTlbe(tlb, vpn).Some?;
      assert FindTlbe(tlb, vpn).value == i;
    }
  }

  /** The slot `insert_tlb` writes: the entry already caching `vpn`, else the first invalid one. */
  function InsertSlot(tlb: seq<TlbEntry>, vpn: nat): Option<nat>
  {
    match FindTlbe(tlb, vpn)
    case Some(i) => Some(i)
    case None => FirstInvalid(tlb, 0)
  }

  /** The first invalid entry at or after position `i`. */
  function FirstInvalid(tlb: seq<TlbEntry>, i: nat): (r: Option<nat>)
    requires i <= |tlb|
    ensures r.Some? ==>
      (i <= r.value < |tlb| && !tlb[r.value].valid && forall j :: i <= j < r.value ==> tlb[j].valid)
    ensures r.None? ==> forall j :: i <= j < |tlb| ==> tlb[j].valid
    decreases |tlb| - i
  {
    if i == |tlb| then None
    else if !tlb[i].valid then Some(i)
    else FirstInvalid(tlb, i + 1)
  }

  /**
   * `insert_tlb`: the entry already caching `vpn` is updated in place;
   * otherwise the first invalid entry is filled. The C code dereferences
   * NULL when neither exists, so one of them must.
   */
  function InsertTlb(tlb: seq<TlbEntry>, vpn: nat, rw: Access, pfn: nat): (r: seq<TlbEntry>)
    requires InsertSlot(tlb, vpn).Some?
    ensures |r| == |tlb|
    ensures exists i ::
      && 0 <= i < |tlb|
      && ((Hit(tlb, i, vpn) && forall j :: 0 <= j < i ==> !Hit(tlb, j, vpn))
          || (&& !tlb[i].valid
              && (forall j :: 0 <= j < i ==> tlb[j].valid)
              && (forall j :: 0 <= j < |tlb| ==> !Hit(tlb, j, vpn))))
      && r[i] == TlbEntry(true, vpn, rw, pfn)
      && (forall j :: 0 <= j < |tlb| && j != i ==> r[j] == tlb[j])
  {
    var i := InsertSlot(tlb, vpn).value;
    tlb[i := TlbEntry(true, vpn, rw, pfn)]
  }

  /** Inserting never creates a second entry for a vpn. */
  lemma InsertKeepsUnique(tlb: seq<TlbEntry>, vpn: nat, rw: Access, pfn: nat)
    requires Unique(tlb) && InsertSlot(tlb, vpn).Some?
    ensures Unique(InsertTlb(tlb, vpn, rw, pfn))
  {
    var i := InsertSlot(tlb, vpn).value;
    var r := InsertTlb(tlb, vpn, rw, pfn);
    assert r == tlb[i := TlbEntry(true, vpn, rw, pfn)];
    forall a, b | 0 <= a < |r| && 0 <= b < |r| && r[a].valid && r[b].valid && r[a].vpn == r[b].vpn
      ensures a == b
    {
      if a != i && b != i {
        assert tlb[a] == r[a] && tlb[b] == r[b];
      } else if a == i && b != i {
        assert Hit(tlb, b, vpn);
      } else if a != i && b == i {
        assert Hit(tlb, a, vpn);
      }
    }
  }

  /** After an insertion the same translation is found for every access it grants. */
  lemma InsertThenLookup(tlb: seq<TlbEntry>, vpn: nat, rw: Access, pfn: nat, want: Access)
    requires Unique(tlb) && InsertSlot(tlb, vpn).Some?
    requires Grants(rw, want)
    ensures LookupTlb(InsertTlb(tlb, vpn, rw, pfn), vpn, want) == Some(pfn)
  {
    var r := InsertTlb(tlb, vpn, rw, pfn);
    InsertKeepsUnique(tlb, vpn, rw, pfn);
    var i := InsertSlot(tlb, vpn).value;
    assert r[i] == TlbEntry(true, vpn, rw, pfn);
    assert Hit(r, i, vpn);
    var k := FindTlbe(r, vpn);
    assert k.Some?;
    assert k.value == i;
  }

  /** Two TLBs with the same hits for `vpn` find the same entry for it. */
  lemma SameHitsSameFind(a: seq<TlbEntry>, b: seq<TlbEntry>, vpn: nat)
    requires |a| == |b|
    requires forall j :: 0 <= j < |a| ==> (Hit(a, j, vpn) <==> Hit(b, j, vpn))
    ensures FindTlbe(a, vpn) == FindTlbe(b, vpn)
  {
    var x := FindTlbe(a, vpn);
    var y := FindTlbe(b, vpn);
    if x.Some? && y.Some? {
      assert !(x.value < y.value) && !(y.value < x.value);
    }
  }

  /** An insertion leaves the translation of every other vpn as it was. */
  lemma InsertKeepsOthers(tlb: seq<TlbEntry>, vpn: nat, rw: Access, pfn: nat, other: nat, want: Access)
    requires InsertSlot(tlb, vpn).Some? && other != vpn
    ensures FindTlbe(InsertTlb(tlb, vpn, rw, pfn), other) == FindTlbe(tlb, other)
    ensures LookupTlb(InsertTlb(tlb, vpn, rw, pfn), other, want) == LookupTlb(tlb, other, want)
  {
    var i := InsertSlot(tlb, vpn).value;
    var r := InsertTlb(tlb, vpn, rw, pfn);
    assert r == tlb[i := TlbEntry(true, vpn, rw, pfn)];
    forall j | 0 <= j < |tlb| ensures Hit(r, j, other) <==> Hit(tlb, j, other) {
      if j == i {
        assert !Hit(r, j, other);
      }
    }
    SameHitsSameFind(r, tlb, other);
  }

  /** After a flush nothing is cached. */
  lemma FlushForgetsAll(tlb: seq<TlbEntry>, vpn: nat, want: Access)
    ensures FindTlbe(FlushTlb(tlb), vpn).None?
    ensures LookupTlb(FlushTlb(tlb), vpn, want).None?
    ensures Unique(FlushTlb(tlb))
  {
  }
}
